=== FILE: README.md ===
# Course catalog grid and building hours, in Dafny

This project models two pieces of a student portfolio site.

The first is the course catalog grid view (`Cursor/GridView.tsx`). From the
course catalog and the user's current choices it derives:

- the list of cards to render:
  1. keep the courses that match the search text, the chosen attribute tags
     and the optional level, credits and department filters;
  2. sort them stably by one of six keys;
  3. move the selected courses to the front, keeping the sort order inside
     each group;
- the three numbers of the progress panel: total credits, the number of
  300-level courses, and how many of the four degree attributes the
  selection covers. They are computed over every selected catalog course,
  whatever the filter currently shows;
- the state updates behind its buttons: toggling a tag or a course, the
  radio-style level, credits and department chips, the remove buttons of
  the active-filter pills, and "Clear All".

The second is the building opening-hours check (`JavaScript/academic.js`).
Given a building's weekly schedule, a weekday and a time of day, it decides
whether the building is open, and it holds the five buildings' schedules.

Modules, one per file:

- `Optional`
- `Seqs`: an order-preserving filter, subsequences, duplicate-freedom.
- `Text`: ASCII lower-casing, substring search, code-point string order.
- `Catalog`: the course record, its tags, selected and unselected courses.
- `CourseFilter`: the filter.
- `CourseSort`: keys, comparators and a stable insertion sort.
- `Pinning`: moving the selection to the front.
- `StateUpdates`: the button handlers.
- `Progress`: the panel's numbers and rings.
- `CourseGrid`: the whole pipeline.
- `Scenarios`: worked examples.
- `BuildingHours`: the opening-hours check.

Modelling choices:

- **Keys act like clicks.** Pressing Enter or Space on a tag chip, a level, credits or department chip, or a sort option runs the same updater as clicking it, so `StateUpdates.ToggleTag`, `StateUpdates.PressChip` and the `sortBy` parameter cover both.
- **Time is an input.** The clock is read in the source with `new Date()`. Here `isOpen` takes the weekday, hour and minute as parameters.
- **Falsy filter values.** The source tests filter values for truthiness. A level or department of `null` or `""` imposes nothing, and so does a credits value of `null` or `0`.
- **Credits are exact rationals.** They are Dafny `real`s.
- **Comparators by sign.** A comparator is modelled by the sign of its result, which is all a sort uses.
- **Stable sort.** `Array.prototype.sort` is stable. It is modelled by an insertion sort, and the model proves that this is the only sorted arrangement that keeps every tie class in input order.
- **`localeCompare`.** It is modelled as lexicographic order by code point.
- **`toLowerCase`.** It is modelled as ASCII-only lower-casing.
- **Tag names become a datatype.** Tags are strings in the source, but they always come from the fixed tag list. They are a `Tag` datatype here, read through `HasTag` in place of `course[tag]`.
- **The selection is a list.** As in the source, `selected` is a list of ids, not a set. Toggling an id that is present removes it, and toggling it again appends it at the end. So toggling twice restores which ids are selected, but not always their order. The order never matters to what is shown or counted, and the model proves that the rendered list and the panel come back exactly (`CourseGrid.DisplayToggleTwice`, `Progress.ToggleTwiceRestoresPanel`).

## Model

| member | source | states |
|---|---|---|
| Text.Lower | Cursor/GridView.tsx:144-147 | lower-casing keeps the length, leaves no capital `A`–`Z` in the result, moves each capital 32 code points up to its small letter, and keeps every other character |
| Text.LowerIdempotent | Cursor/GridView.tsx:144-147 | lower-casing an already lower-cased string changes nothing |
| CourseFilter.SearchIgnoresCase | Cursor/GridView.tsx:143-147 | the search is case-insensitive: a search text and its lower-cased form hit exactly the same courses |
| Text.ContainsAt | Cursor/GridView.tsx:145-147 | `includes` holds exactly when the search text occurs as a contiguous block at some position |
| Text.LexCompareMeaning | Cursor/GridView.tsx:180-181 | the department comparison is at most zero exactly when the first string is a prefix of the second or has the smaller character where they first differ |
| CourseFilter.HoldsAll | Cursor/GridView.tsx:150-155 | the tag loop accepts a course exactly when it carries every chosen tag |
| CourseFilter.Matches | Cursor/GridView.tsx:141-164 | a course is kept exactly when it meets every active constraint: search in name or description, all tags, equal level, equal credits, equal department |
| CourseFilter.FilteredSubsequence | Cursor/GridView.tsx:141-164 | the filtered list keeps catalog order and holds exactly the matching catalog courses |
| CourseFilter.UnconstrainedKeepsAll | Cursor/GridView.tsx:141-164 | with no search, no tags and no active chip, every catalog course is kept, in order |
| CourseFilter.FalsyIsUnset | Cursor/GridView.tsx:156-161 | an empty level or department, or zero credits, filters exactly like no value |
| CourseFilter.RefineNarrows | Cursor/GridView.tsx:141-164 | a filter state that adds constraints keeps a subsequence of what the looser one keeps |
| CourseFilter.AddTagNarrows | Cursor/GridView.tsx:150-155 | adding a tag never adds a course to the filtered list |
| CourseFilter.TagsAreConjunctive | Cursor/GridView.tsx:150-155 | a course with `cs1` but not `cs2` passes the tag filter `[cs1]` and fails `[cs1, cs2]` |
| CourseSort.ParseSortKey | Cursor/GridView.tsx:176-195 | a recognised `sortBy` names exactly its key, and `sortBy` selects no key exactly when it is none of the six names |
| CourseSort.ParseKeyName | Cursor/GridView.tsx:101 | each key is reached by its own name, and the initial empty `sortBy` sorts nothing |
| CourseSort.LevelSortValue | Cursor/GridView.tsx:168-174 | the level rank lies in 1..5; rank 1, 2 or 3 exactly for "100", "200" or "300"; rank 4 exactly for other levels starting with "short" in any case |
| CourseSort.ShortRanksFourth | Cursor/GridView.tsx:171-173 | "Short" and "SHORT TERM" rank 4 and "400" ranks 5 |
| CourseSort.TagIndex | Cursor/GridView.tsx:187-193 | the tag-group rank is the position of the first flag the course carries in the order cs1, cs2, cds, cel, dsav, hcd, or 6 when it carries none |
| CourseSort.TagIndexFrom | Cursor/GridView.tsx:189-192 | the loop from position `i` stops at the first carried flag at or after `i` |
| CourseSort.CompareMeaning | Cursor/GridView.tsx:176-194 | for every key, a non-positive comparator sign means exactly that the first course may precede the second by that key's field |
| CourseSort.CompareFlip | Cursor/GridView.tsx:176-194 | swapping the two courses negates every comparator's sign |
| CourseSort.CompareZero | Cursor/GridView.tsx:176-194 | two courses tie under a key exactly when they agree on its field: equal departments, equal credits, equal level ranks or equal tag-group ranks |
| CourseSort.CompareTrans | Cursor/GridView.tsx:176-194 | every comparator's "at most" is transitive |
| CourseSort.ComparatorIsTotalPreorder | Cursor/GridView.tsx:176-194 | each comparator the view passes to `sort` is a total preorder |
| CourseSort.Insert | Cursor/GridView.tsx:176-194 | inserting adds exactly the one element to the multiset |
| CourseSort.StableSort | Cursor/GridView.tsx:176-194 | sorting is a permutation |
| CourseSort.InsertSorted | Cursor/GridView.tsx:176-194 | inserting into a sorted list keeps it sorted |
| CourseSort.StableSortSorted | Cursor/GridView.tsx:176-194 | the sorted list is ordered by the comparator |
| CourseSort.InsertTies | Cursor/GridView.tsx:176-194 | inserting an element puts it ahead of the elements tied with it and leaves other tie classes alone |
| CourseSort.StableSortTies | Cursor/GridView.tsx:176-194 | every tie class keeps its input order: the sort is stable |
| CourseSort.SortedTiesUnique | Cursor/GridView.tsx:176-194 | two sorted lists with the same tie classes are equal |
| CourseSort.StableSortIsUnique | Cursor/GridView.tsx:176-194 | the stable sort's output is the only sorted list with the input's tie classes |
| CourseSort.FilterKeepsSorted | Cursor/GridView.tsx:197-198 | keeping part of a sorted list leaves it sorted |
| CourseSort.SortCoursesSpec | Cursor/GridView.tsx:175-195 | the sort step is a permutation; an unrecognised key leaves the list unchanged; a recognised key orders the list by the key's field and keeps each tie class in input order |
| CourseSort.EqualKeysKeepOrder | Cursor/GridView.tsx:182-183 | two courses the key cannot tell apart, such as equal credits under `credits-asc`, keep their input order |
| Pinning.PinPermutes | Cursor/GridView.tsx:196-199 | pinning neither drops nor duplicates a course |
| Pinning.PinLayout | Cursor/GridView.tsx:196-199 | the pinned list is the selected group, every member selected, followed by the unselected group, none selected |
| Pinning.PinSelectedFirst | Cursor/GridView.tsx:196-199 | every selected course comes before every unselected one |
| Pinning.PinKeepsGroupOrder | Cursor/GridView.tsx:196-199 | each group keeps the order it had in the sorted list |
| Pinning.PinIdempotent | Cursor/GridView.tsx:196-199 | pinning twice is pinning once |
| Pinning.PinMembershipOnly | Cursor/GridView.tsx:197-198 | only which ids are selected matters, not their order or repetition |
| StateUpdates.Remove | Cursor/GridView.tsx:740 | removal drops every occurrence of the value, keeps every other value with its count, keeps the remaining order, and keeps a duplicate-free list duplicate-free |
| StateUpdates.Toggle | Cursor/GridView.tsx:737-742 | toggling flips the membership of the toggled value and of nothing else; a present value is removed with all its copies, keeping the rest in order and with their counts; an absent value is appended once after the unchanged old list; a duplicate-free list stays duplicate-free |
| StateUpdates.ToggleTwice | Cursor/GridView.tsx:737-742 | toggling the same value twice restores membership, and restores the list itself when the value was absent |
| StateUpdates.ToggleTag | Cursor/GridView.tsx:305-311 | the tag chip flips that tag's membership, keeps the other tags and changes no other filter field |
| StateUpdates.ToggleTagNarrowsOrWidens | Cursor/GridView.tsx:305-311 | turning a tag on narrows the filtered list; turning it off widens it |
| StateUpdates.RadioToggle | Cursor/GridView.tsx:341 | a radio chip selects its value unless it was already selected, in which case it clears |
| StateUpdates.RadioTwice | Cursor/GridView.tsx:341 | from cleared or from the same value, pressing a chip twice restores the state |
| StateUpdates.PressChip | Cursor/GridView.tsx:340-402 | a level, credits or department chip chooses its value unless that value is already chosen, in which case the dimension clears; no other field changes |
| StateUpdates.PressChipNarrowsOrWidens | Cursor/GridView.tsx:340-402 | pressing a chip on an empty dimension narrows the filtered list; pressing the chosen chip widens it |
| StateUpdates.ClearAll | Cursor/GridView.tsx:419-424 | "Clear All" returns every field to its initial value except the search text, which it keeps; so apart from the search no constraint is left, whatever the search holds, and every constraint of the previous state is loosened |
| StateUpdates.ClearAllWidens | Cursor/GridView.tsx:419-424 | clearing only widens the filtered list, and with an empty search it restores the whole catalog |
| StateUpdates.RemovePill | Cursor/GridView.tsx:436-466 | a tag pill's remove handler drops every copy of its tag from the tag list and keeps the others in order and with their counts; the level, credits and department pills set their own dimension to null; no other field changes |
| StateUpdates.RemovePillIsUnpress | Cursor/GridView.tsx:436-466 | removing the pill of a chosen tag is toggling that tag, and removing the pill of a chosen level, credits or department is pressing that value's chip again |
| StateUpdates.RemovePillWidens | Cursor/GridView.tsx:436-466 | removing a pill only widens the filtered list |
| CourseGrid.DisplayListSpec | Cursor/GridView.tsx:141-199 | the rendered list is a permutation of the filtered list, holds exactly the matching catalog courses, and shows every selected course before every unselected one |
| CourseGrid.PinKeepsGroupsSorted | Cursor/GridView.tsx:196-199 | pinning a sorted list leaves each group sorted |
| CourseGrid.DisplayGroupsSorted | Cursor/GridView.tsx:175-199 | within the selected group and within the unselected group, the rendered list follows the chosen key |
| CourseGrid.SelectionOnlyReorders | Cursor/GridView.tsx:196-199 | changing the selection never hides or reveals a course |
| CourseGrid.DisplayToggleTwice | Cursor/GridView.tsx:737-742 | clicking a course twice gives back exactly the list shown before |
| CourseGrid.ClearAllShowsCatalog | Cursor/GridView.tsx:419-424 | after "Clear All" with an empty search box, every catalog course is shown |
| Progress.SumCreditsConcat | Cursor/GridView.tsx:491-494 | the credit total of two lists is the sum of their totals |
| Progress.Aggregate | Cursor/GridView.tsx:489-500 | the 300-level count is at most the number of selected catalog courses, and the attribute count is at most four |
| Progress.AttributeCountIsCoverage | Cursor/GridView.tsx:498-500 | the attribute count is the number of distinct attributes that at least one selected course carries |
| Progress.RepeatedAttributeCountsOnce | Cursor/GridView.tsx:498-500 | any number of selected courses carrying only `dsav` count as one attribute |
| Progress.AggregateMembershipOnly | Cursor/GridView.tsx:489-500 | the panel depends on which ids are selected, not on their order or repetition |
| Progress.ToggleTwiceRestoresPanel | Cursor/GridView.tsx:737-742 | clicking a course twice leaves the panel as it was |
| Progress.ChosenAfterSelect | Cursor/GridView.tsx:490 | with unique ids, selecting an unselected course adds exactly that course to the selected courses, at its catalog position |
| Progress.SelectAddsCourse | Cursor/GridView.tsx:489-500 | selecting a new course adds its credits to the total, adds one to the 300-level count when it is 300-level, and never lowers the attribute count |
| Progress.RingsShareValues | Cursor/GridView.tsx:643-661 | a ring shown under two programme types shows the same value; only the credit target depends on the type |
| Progress.RingsShown | Cursor/GridView.tsx:643-661 | the credit ring is always first, the 300-level ring appears only for a major, and the attribute ring for a major or a minor |
| Scenarios.SampleProgress | Cursor/GridView.tsx:489-500 | selecting a 0.5-credit and a 1-credit 300-level `dsav` course gives 1.5 credits, two 300-level courses and one attribute |
| Scenarios.SamplePinnedOrder | Cursor/GridView.tsx:141-199 | filtering to level 300 and sorting by descending credits and pinning the selected half-credit course shows it before the full-credit one |
| BuildingHours.Minutes | JavaScript/academic.js:8 | a valid clock reading lies within the day's 1440 minutes |
| BuildingHours.MinutesRoundTrip | JavaScript/academic.js:8 | the hour and the minute are recovered from the minute count |
| BuildingHours.DaySelection | JavaScript/academic.js:11-18 | days 1 to 5 read the `"Monday-Friday"` list, day 6 the `"Saturday"` list and day 0 the `"Sunday"` list; a missing key reads an empty list, and a day number outside 0..6 reads nothing |
| BuildingHours.MissingKeyMeansClosed | JavaScript/academic.js:11-18 | a day whose key is missing is closed at every time |
| BuildingHours.IsOpen | JavaScript/academic.js:3-27 | the check answers open exactly when some interval of the day's list holds the current minute, start included and end excluded |
| BuildingHours.OpenSingle | JavaScript/academic.js:21-25 | one interval is open from its start minute up to, but not at, its end minute |
| BuildingHours.OpenAtAppend | JavaScript/academic.js:21-25 | a list of intervals is open exactly when one of its parts is |
| BuildingHours.OpenExactlyDuringHours | JavaScript/academic.js:30-56 | each building is open on each day exactly from its opening hour to its closing hour in the table |
| BuildingHours.WeekdaysSevenToMidnight | JavaScript/academic.js:30-56 | on weekdays every building is open exactly from 7:00 to midnight |
| BuildingHours.SaturdayFivePm | JavaScript/academic.js:30-56 | at 17:00 on a Saturday only Olin is open |

## Left out

- Rendering: cards, the labels and colours of the active-filter pills, the `ProgressRing` SVG geometry, course-id display formatting and the status-line HTML of the opening-hours page. None of these decides what is computed.
- Opening and closing the filter and sort dropdowns: the toggle buttons' click and key handlers and the outside-click handler. They change only which menu is visible, never the filter state, `sortBy` or the selection.
- Loading the catalog from JSON. The catalog is a parameter.
- The `img` field of a course record, which the view never reads.
- Clock, timer and DOM I/O of the hours page: `new Date()`, the page-load handler that writes each building's status line, the `timeUpdater` clock that re-arms itself with `setTimeout`, and the `academic_button` click handler. The clock reading is a parameter of `IsOpen`.
- Floating-point rounding of credit sums. Credits are exact rationals.
- Unicode case mapping. Lower-casing covers ASCII letters only.
- Locale collation. `localeCompare` is ordered by code point.
- Tag strings outside the six known tags, and missing or ill-typed record fields. The datatypes rule both out.
- `NaN` credits. `real` has no such value.
- A schedule entry that is not a start/end pair. `Interval` rules it out.
- The other files of the repository: Firebase, the navigation bar, the example apps and charts. They are not part of this model.

=== FILE: building_hours.dfy ===
/**
 The opening-hours check behind each building's status line: a building's weekly
 schedule, the current day and time of day, and whether the building is open
 at that moment. The clock reading is a parameter: `day` is the weekday as
 `Date.getDay` reports it (0 for Sunday up to 6 for Saturday), `hour` and
 `minute` are the local time of day.
 */
module BuildingHours {
  import opened Optional

  /** An opening interval in minutes since midnight, start included and end excluded. */
  datatype Interval = Interval(start: int, end: int)

  /**
   The three keys a schedule object may carry. A missing key is `None`; a
   present one, even with no intervals, counts as given.
   */
  datatype Schedule = Schedule(
    weekdays: Option<seq<Interval>>,
    saturday: Option<seq<Interval>>,
    sunday: Option<seq<Interval>>)

  /** Minutes since midnight. */
  function Minutes(hour: int, minute: int): (t: int)
    ensures 0 <= hour < 24 && 0 <= minute < 60 ==> 0 <= t < 24 * 60
  {
    hour * 60 + minute
  }

  /** The hour and the minute are recovered from the minute count, so no two readings collide. */
  lemma MinutesRoundTrip(hour: int, minute: int)
    requires 0 <= minute < 60
    ensures Minutes(hour, minute) / 60 == hour
    ensures Minutes(hour, minute) % 60 == minute
  {
  }

  /** The intervals that apply on `day`: Monday to Friday share one list; any other value has none. */
  function TodaySchedule(schedule: Schedule, day: int): seq<Interval> {
    if 1 <= day <= 5 && schedule.weekdays.Some? then schedule.weekdays.value
    else if day == 6 && schedule.saturday.Some? then schedule.saturday.value
    else if day == 0 && schedule.sunday.Some? then schedule.sunday.value
    else []
  }

  /**
   Monday to Friday read the `"Monday-Friday"` list, Saturday and Sunday
   read their own, a missing key reads an empty list, and a day number
   outside 0..6 reads nothing.
   */
  lemma DaySelection(schedule: Schedule, day: int)
    ensures 1 <= day <= 5 && schedule.weekdays.Some? ==> TodaySchedule(schedule, day) == schedule.weekdays.value
    ensures 1 <= day <= 5 && schedule.weekdays.None? ==> TodaySchedule(schedule, day) == []
    ensures day == 6 && schedule.saturday.Some? ==> TodaySchedule(schedule, day) == schedule.saturday.value
    ensures day == 6 && schedule.saturday.None? ==> TodaySchedule(schedule, day) == []
    ensures day == 0 && schedule.sunday.Some? ==> TodaySchedule(schedule, day) == schedule.sunday.value
    ensures day == 0 && schedule.sunday.None? ==> TodaySchedule(schedule, day) == []
    ensures (day < 0 || day > 6) ==> TodaySchedule(schedule, day) == []
  {
  }

  /** A day whose key is missing has no opening hours. */
  lemma MissingKeyMeansClosed(schedule: Schedule, day: int, t: int)
    requires 1 <= day <= 5 ==> schedule.weekdays.None?
    requires day == 6 ==> schedule.saturday.None?
    requires day == 0 ==> schedule.sunday.None?
    ensures !OpenAt(TodaySchedule(schedule, day), t)
  {
  }

  /** `t` lies in the half-open interval `iv`. */
  predicate Covers(iv: Interval, t: int) {
    iv.start <= t < iv.end
  }

  /** Some interval of the list covers `t`. */
  predicate OpenAt(intervals: seq<Interval>, t: int) {
    exists k :: 0 <= k < |intervals| && Covers(intervals[k], t)
  }

  /**
   Whether the building is open: scan today's intervals in order and report
   open at the first one holding the current minute.
   */
  method IsOpen(schedule: Schedule, day: int, hour: int, minute: int) returns (open: bool)
    ensures open <==> OpenAt(TodaySchedule(schedule, day), Minutes(hour, minute))
  {
    var today := TodaySchedule(schedule, day);
    var now := hour * 60 + minute;
    var k := 0;
    while k < |today|
      invariant 0 <= k <= |today|
      invariant forall m :: 0 <= m < k ==> !Covers(today[m], now)
    {
      if now >= today[k].start && now < today[k].end {
        return true;
      }
      k := k + 1;
    }
    return false;
  }

  /** One interval: open from its start minute up to, but not at, its end minute. */
  lemma OpenSingle(iv: Interval, t: int)
    ensures OpenAt([iv], t) <==> iv.start <= t < iv.end
  {
    if iv.start <= t < iv.end {
      assert Covers([iv][0], t);
    }
  }

  /** A list of intervals is open exactly when one of its parts is. */
  lemma OpenAtAppend(a: seq<Interval>, b: seq<Interval>, t: int)
    ensures OpenAt(a + b, t) <==> OpenAt(a, t) || OpenAt(b, t)
  {
    if OpenAt(a + b, t) {
      var k :| 0 <= k < |a + b| && Covers((a + b)[k], t);
      if k >= |a| {
        assert Covers(b[k - |a|], t);
      }
    }
    if OpenAt(a, t) {
      var k :| 0 <= k < |a| && Covers(a[k], t);
      assert (a + b)[k] == a[k];
    }
    if OpenAt(b, t) {
      var k :| 0 <= k < |b| && Covers(b[k], t);
      assert (a + b)[|a| + k] == b[k];
    }
  }

  /** The buildings whose status the page shows. */
  datatype Building = Bonney | Hathorn | RogerWilliams | Olin | Hedge

  /** Each building's weekly hours. */
  function ScheduleOf(b: Building): Schedule {
    match b
    case Bonney =>
      Schedule(Some([Interval(7 * 60, 24 * 60)]), Some([Interval(10 * 60, 17 * 60)]), Some([Interval(12 * 60, 24 * 60)]))
    case Hathorn =>
      Schedule(Some([Interval(7 * 60, 24 * 60)]), Some([Interval(9 * 60, 17 * 60)]), Some([Interval(9 * 60, 24 * 60)]))
    case RogerWilliams =>
      Schedule(Some([Interval(7 * 60, 24 * 60)]), Some([Interval(9 * 60, 17 * 60)]), Some([Interval(9 * 60, 24 * 60)]))
    case Olin =>
      Schedule(Some([Interval(7 * 60, 24 * 60)]), Some([Interval(7 * 60, 24 * 60)]), Some([Interval(10 * 60, 24 * 60)]))
    case Hedge =>
      Schedule(Some([Interval(7 * 60, 24 * 60)]), Some([Interval(10 * 60, 17 * 60)]), Some([Interval(12 * 60, 24 * 60)]))
  }

  /** The hour a building opens and the hour it closes on `day`, read off the table. */
  function Hours(b: Building, day: int): (r: (int, int))
    requires 0 <= day <= 6
  {
    if 1 <= day <= 5 then (7, 24)
    else if day == 6 then
      (match b
       case Bonney => (10, 17)
       case Hathorn => (9, 17)
       case RogerWilliams => (9, 17)
       case Olin => (7, 24)
       case Hedge => (10, 17))
    else
      (match b
       case Bonney => (12, 24)
       case Hathorn => (9, 24)
       case RogerWilliams => (9, 24)
       case Olin => (10, 24)
       case Hedge => (12, 24))
  }

  /**
   On every day of the week, a building is open exactly from its opening hour
   on the hour up to, but not including, its closing hour.
   */
  lemma OpenExactlyDuringHours(b: Building, day: int, hour: int, minute: int)
    requires 0 <= day <= 6
    requires 0 <= hour < 24 && 0 <= minute < 60
    ensures OpenAt(TodaySchedule(ScheduleOf(b), day), Minutes(hour, minute))
        <==> Hours(b, day).0 <= hour < Hours(b, day).1
  {
    var (open, close) := Hours(b, day);
    var today := TodaySchedule(ScheduleOf(b), day);
    assert today == [Interval(open * 60, close * 60)];
    OpenSingle(today[0], Minutes(hour, minute));
  }

  /** Weekdays are the same for every building, 7:00 until midnight. */
  lemma WeekdaysSevenToMidnight(b: Building, day: int, hour: int, minute: int)
    requires 1 <= day <= 5
    requires 0 <= hour < 24 && 0 <= minute < 60
    ensures OpenAt(TodaySchedule(ScheduleOf(b), day), Minutes(hour, minute)) <==> hour >= 7
  {
    OpenExactlyDuringHours(b, day, hour, minute);
  }

  /** At 17:00 on a Saturday only Olin is still open: the end of an interval is already closed. */
  lemma SaturdayFivePm(b: Building)
    ensures OpenAt(TodaySchedule(ScheduleOf(b), 6), Minutes(17, 0)) <==> b == Olin
  {
    OpenExactlyDuringHours(b, 6, 17, 0);
  }
}

=== FILE: catalog.dfy ===
/**
 The course record of the grid view and the six attribute flags it carries,
 with the one place where a flag name is turned into a field read.
 */
module Catalog {
  import opened Seqs

  /** The attribute flags, in the order the filter menu lists them. */
  datatype Tag = CS1 | CS2 | DSAV | CDS | HCD | CEL

  /**
   A catalog entry. The image path of the source record is never read by
   the view and is not modelled; credits are exact rationals (the catalog uses 1 and 0.5).
   */
  datatype Course = Course(
    id: int,
    name: string,
    description: string,
    department: string,
    credits: real,
    level: string,
    cs1: bool,
    cs2: bool,
    dsav: bool,
    cds: bool,
    hcd: bool,
    cel: bool)

  /** The flag a tag names, read from the course: the typed form of `course[tag]`. */
  predicate HasTag(c: Course, t: Tag) {
    match t
    case CS1 => c.cs1
    case CS2 => c.cs2
    case DSAV => c.dsav
    case CDS => c.cds
    case HCD => c.hcd
    case CEL => c.cel
  }

  /** No two catalog entries share an id. */
  predicate UniqueIds(catalog: seq<Course>) {
    forall i, j :: 0 <= i < j < |catalog| ==> catalog[i].id != catalog[j].id
  }

  /** `selected.includes(c.id)`. */
  predicate IsSelected(selected: seq<int>, c: Course) {
    c.id in selected
  }

  /** The courses of `s` whose id is selected, in the order of `s`. */
  function Chosen(s: seq<Course>, selected: seq<int>): seq<Course> {
    Filter(c => IsSelected(selected, c), s)
  }

  /** The courses of `s` whose id is not selected, in the order of `s`. */
  function Unchosen(s: seq<Course>, selected: seq<int>): seq<Course> {
    Filter(c => !IsSelected(selected, c), s)
  }
}

=== FILE: course_filter.dfy ===
/**
 The grid view's filter: a free-text search over name and description, an
 AND over the chosen attribute tags, and optional exact matches on level,
 credits and department. A filter value the source treats as falsy (null,
 the empty string, the number 0) imposes no constraint.
 */
module CourseFilter {
  import opened Optional
  import opened Seqs
  import opened Text
  import opened Catalog

  datatype FilterState = FilterState(
    search: string,
    tags: seq<Tag>,
    level: Option<string>,
    credits: Option<real>,
    department: Option<string>)

  /** The state the view starts in: nothing typed, nothing chosen. */
  const Initial: FilterState := FilterState("", [], None, None, None)

  /** A `string | null` filter value is truthy. */
  predicate TextActive(v: Option<string>) {
    v.Some? && v.value != ""
  }

  /** A `number | null` filter value is truthy. */
  predicate NumberActive(v: Option<real>) {
    v.Some? && v.value != 0.0
  }

  /** The search text occurs, case-insensitively, in the name or the description. */
  predicate SearchHit(c: Course, search: string) {
    || Contains(Lower(c.name), Lower(search))
    || Contains(Lower(c.description), Lower(search))
  }

  /** The search ignores case: lower-casing the search text changes no hit. */
  lemma SearchIgnoresCase(c: Course, search: string)
    ensures SearchHit(c, Lower(search)) == SearchHit(c, search)
  {
    LowerIdempotent(search);
  }

  /** The tag loop: it stops at the first filter tag the course lacks. */
  function HoldsAll(c: Course, tags: seq<Tag>): (r: bool)
    ensures r <==> forall t :: t in tags ==> HasTag(c, t)
  {
    if |tags| == 0 then true
    else if !HasTag(c, tags[0]) then false
    else HoldsAll(c, tags[1..])
  }

  /** The filter callback, one early `return false` per dimension. */
  function Matches(f: FilterState, c: Course): (keep: bool)
    ensures keep <==>
      && (f.search == "" || SearchHit(c, f.search))
      && (forall t :: t in f.tags ==> HasTag(c, t))
      && (TextActive(f.level) ==> c.level == f.level.value)
      && (NumberActive(f.credits) ==> c.credits == f.credits.value)
      && (TextActive(f.department) ==> c.department == f.department.value)
  {
    if f.search != ""
       && !Contains(Lower(c.name), Lower(f.search))
       && !Contains(Lower(c.description), Lower(f.search)) then false
    else if |f.tags| > 0 && !HoldsAll(c, f.tags) then false
    else if TextActive(f.level) && c.level != f.level.value then false
    else if NumberActive(f.credits) && c.credits != f.credits.value then false
    else if TextActive(f.department) && c.department != f.department.value then false
    else true
  }

  /** `courses.filter(...)`: the catalog entries the filter keeps. */
  function FilteredCourses(catalog: seq<Course>, f: FilterState): seq<Course> {
    Filter(c => Matches(f, c), catalog)
  }

  /** The filtered list is a subsequence of the catalog holding exactly its matching entries. */
  lemma FilteredSubsequence(catalog: seq<Course>, f: FilterState)
    ensures IsSubseq(FilteredCourses(catalog, f), catalog)
    ensures forall c :: c in FilteredCourses(catalog, f) <==> c in catalog && Matches(f, c)
  {
    FilterIsSubseq(c => Matches(f, c), catalog);
    FilterMembers(c => Matches(f, c), catalog);
  }

  /** No dimension is active. */
  predicate Unconstrained(f: FilterState) {
    && f.search == ""
    && |f.tags| == 0
    && !TextActive(f.level)
    && !NumberActive(f.credits)
    && !TextActive(f.department)
  }

  /** With no active dimension the whole catalog comes back, in order. */
  lemma UnconstrainedKeepsAll(catalog: seq<Course>, f: FilterState)
    requires Unconstrained(f)
    ensures FilteredCourses(catalog, f) == catalog
  {
    FilterAll(c => Matches(f, c), catalog);
  }

  /** A falsy level, credits or department value filters exactly like null. */
  lemma FalsyIsUnset(f: FilterState, c: Course)
    ensures Matches(f.(level := Some("")), c) == Matches(f.(level := None), c)
    ensures Matches(f.(credits := Some(0.0)), c) == Matches(f.(credits := None), c)
    ensures Matches(f.(department := Some("")), c) == Matches(f.(department := None), c)
  {
  }

  /** `g` imposes every constraint `f` imposes (and possibly more). */
  predicate Refines(g: FilterState, f: FilterState) {
    && (f.search == "" || g.search == f.search)
    && (forall t :: t in f.tags ==> t in g.tags)
    && (TextActive(f.level) ==> g.level == f.level)
    && (NumberActive(f.credits) ==> g.credits == f.credits)
    && (TextActive(f.department) ==> g.department == f.department)
  }

  /** Activating more dimensions only narrows the result, and keeps its order. */
  lemma RefineNarrows(catalog: seq<Course>, g: FilterState, f: FilterState)
    requires Refines(g, f)
    ensures IsSubseq(FilteredCourses(catalog, g), FilteredCourses(catalog, f))
  {
    FilterMono(c => Matches(g, c), c => Matches(f, c), catalog);
  }

  /** Adding a tag to the filter never enlarges the result. */
  lemma AddTagNarrows(catalog: seq<Course>, f: FilterState, t: Tag)
    ensures IsSubseq(FilteredCourses(catalog, f.(tags := f.tags + [t])), FilteredCourses(catalog, f))
  {
    RefineNarrows(catalog, f.(tags := f.tags + [t]), f);
  }

  /** Tags combine by AND: a course with `cs1` but not `cs2` fails the filter `{cs1, cs2}`. */
  lemma TagsAreConjunctive()
    ensures var c := Course(1, "Intro", "", "DCS", 1.0, "100", true, false, false, false, false, false);
      && Matches(Initial.(tags := [CS1]), c)
      && !Matches(Initial.(tags := [CS1, CS2]), c)
  {
    var c := Course(1, "Intro", "", "DCS", 1.0, "100", true, false, false, false, false, false);
    assert CS2 in [CS1, CS2];
  }
}

=== FILE: course_grid.dfy ===
/**
 The list the grid view renders: the catalog filtered by the current
 filter state, sorted by the chosen key, and with the selected courses
 pinned to the top.
 */
module CourseGrid {
  import opened Catalog
  import opened CourseFilter
  import opened CourseSort
  import opened Pinning
  import opened StateUpdates

  /** Filter, then sort, then pin the selection. */
  function DisplayList(catalog: seq<Course>, f: FilterState, sortBy: string, selected: seq<int>): seq<Course> {
    Pin(SortCourses(sortBy, FilteredCourses(catalog, f)), selected)
  }

  /**
   The rendered list holds exactly the matching catalog entries, each as often
   as the filtered list holds it, with every selected course ahead of every
   unselected one.
   */
  lemma DisplayListSpec(catalog: seq<Course>, f: FilterState, sortBy: string, selected: seq<int>)
    ensures multiset(DisplayList(catalog, f, sortBy, selected)) == multiset(FilteredCourses(catalog, f))
    ensures forall c :: c in DisplayList(catalog, f, sortBy, selected) <==> c in catalog && Matches(f, c)
    ensures var d := DisplayList(catalog, f, sortBy, selected);
      forall i, j :: 0 <= i < j < |d| && IsSelected(selected, d[j]) ==> IsSelected(selected, d[i])
  {
    var filtered := FilteredCourses(catalog, f);
    var sorted := SortCourses(sortBy, filtered);
    var d := Pin(sorted, selected);
    SortCoursesSpec(sortBy, filtered);
    PinPermutes(sorted, selected);
    PinSelectedFirst(sorted, selected);
    FilteredSubsequence(catalog, f);
    forall c
      ensures c in d <==> c in filtered
    {
      assert c in d <==> c in multiset(d);
      assert c in filtered <==> c in multiset(filtered);
    }
  }

  /** Pinning a sorted list leaves each of its two groups sorted. */
  lemma PinKeepsGroupsSorted(cmp: (Course, Course) -> int, sorted: seq<Course>, selected: seq<int>)
    requires Sorted(cmp, sorted)
    ensures var d := Pin(sorted, selected);
      forall i, j :: 0 <= i < j < |d| && IsSelected(selected, d[i]) == IsSelected(selected, d[j]) ==>
        cmp(d[i], d[j]) <= 0
  {
    var a, b := Chosen(sorted, selected), Unchosen(sorted, selected);
    var d := Pin(sorted, selected);
    FilterKeepsSorted(cmp, c => IsSelected(selected, c), sorted);
    FilterKeepsSorted(cmp, c => !IsSelected(selected, c), sorted);
    PinLayout(sorted, selected);
    forall i, j | 0 <= i < j < |d| && IsSelected(selected, d[i]) == IsSelected(selected, d[j])
      ensures cmp(d[i], d[j]) <= 0
    {
      if j < |a| {
        assert d[i] == a[i] && d[j] == a[j];
      } else if i >= |a| {
        assert d[i] == b[i - |a|] && d[j] == b[j - |a|];
      } else {
        assert false;
      }
    }
  }

  /**
   Within the selected group and within the unselected group, the rendered
   list follows the chosen sort key.
   */
  lemma DisplayGroupsSorted(catalog: seq<Course>, f: FilterState, k: SortKey, selected: seq<int>)
    ensures var d := DisplayList(catalog, f, KeyName(k), selected);
      forall i, j :: 0 <= i < j < |d| && IsSelected(selected, d[i]) == IsSelected(selected, d[j]) ==>
        Precedes(k, d[i], d[j])
  {
    var filtered := FilteredCourses(catalog, f);
    var sorted := SortCourses(KeyName(k), filtered);
    var d := Pin(sorted, selected);
    ParseKeyName(k);
    ComparatorIsTotalPreorder(k);
    StableSortSorted(Comparator(k), filtered);
    PinKeepsGroupsSorted(Comparator(k), sorted, selected);
    forall i, j | 0 <= i < j < |d| && IsSelected(selected, d[i]) == IsSelected(selected, d[j])
      ensures Precedes(k, d[i], d[j])
    {
      CompareMeaning(k, d[i], d[j]);
    }
  }

  /** Selecting or deselecting a course only moves courses; it never hides or reveals one. */
  lemma SelectionOnlyReorders(catalog: seq<Course>, f: FilterState, sortBy: string, sel1: seq<int>, sel2: seq<int>)
    ensures multiset(DisplayList(catalog, f, sortBy, sel1)) == multiset(DisplayList(catalog, f, sortBy, sel2))
  {
    var sorted := SortCourses(sortBy, FilteredCourses(catalog, f));
    PinPermutes(sorted, sel1);
    PinPermutes(sorted, sel2);
  }

  /** Clicking a course twice gives back the very list the grid showed before. */
  lemma DisplayToggleTwice(catalog: seq<Course>, f: FilterState, sortBy: string, selected: seq<int>, id: int)
    ensures DisplayList(catalog, f, sortBy, Toggle(Toggle(selected, id), id)) == DisplayList(catalog, f, sortBy, selected)
  {
    ToggleTwice(selected, id);
    PinMembershipOnly(SortCourses(sortBy, FilteredCourses(catalog, f)), Toggle(Toggle(selected, id), id), selected);
  }

  /** After "Clear All" with an empty search box, every catalog course is shown again. */
  lemma ClearAllShowsCatalog(catalog: seq<Course>, f: FilterState, sortBy: string, selected: seq<int>)
    requires f.search == ""
    ensures multiset(DisplayList(catalog, ClearAll(f), sortBy, selected)) == multiset(catalog)
  {
    ClearAllWidens(catalog, f);
    DisplayListSpec(catalog, ClearAll(f), sortBy, selected);
  }
}

=== FILE: course_sort.dfy ===
/**
 The grid view's sort: six recognised `sortBy` values, each a comparator on
 one key, applied by a stable sort; any other `sortBy` leaves the filtered
 order alone. A comparator is modelled by the sign of its result, which is
 all `Array.prototype.sort` looks at.
 */
module CourseSort {
  import opened Optional
  import opened Seqs
  import opened Text
  import opened Catalog

  datatype SortKey = LevelAsc | LevelDesc | Department | CreditsAsc | CreditsDesc | TagGroup

  /** The `sortBy` string that selects each key. */
  function KeyName(k: SortKey): string {
    match k
    case LevelAsc => "level-asc"
    case LevelDesc => "level-desc"
    case Department => "department"
    case CreditsAsc => "credits-asc"
    case CreditsDesc => "credits-desc"
    case TagGroup => "tag-group"
  }

  /** The `if (sortBy === ...) ... else if ...` dispatch; `None` means no sort is applied. */
  function ParseSortKey(sortBy: string): (r: Option<SortKey>)
    ensures r.Some? ==> KeyName(r.value) == sortBy
    ensures r.None? <==> forall k :: KeyName(k) != sortBy
  {
    if sortBy == "level-asc" then Some(LevelAsc)
    else if sortBy == "level-desc" then Some(LevelDesc)
    else if sortBy == "department" then Some(Department)
    else if sortBy == "credits-asc" then Some(CreditsAsc)
    else if sortBy == "credits-desc" then Some(CreditsDesc)
    else if sortBy == "tag-group" then Some(TagGroup)
    else None
  }

  /** Every key is reached by its own name, and the initial empty `sortBy` reaches none. */
  lemma ParseKeyName(k: SortKey)
    ensures ParseSortKey(KeyName(k)) == Some(k)
    ensures ParseSortKey("") == None
  {
  }

  /** Level ordinal: the three numeric levels, then anything starting "short" in any case, then the rest. */
  function LevelSortValue(level: string): (r: int)
    ensures 1 <= r <= 5
    ensures r == 1 <==> level == "100"
    ensures r == 2 <==> level == "200"
    ensures r == 3 <==> level == "300"
    ensures r == 4 <==> level != "100" && level != "200" && level != "300" && StartsWith(Lower(level), "short")
  {
    if level == "100" then 1
    else if level == "200" then 2
    else if level == "300" then 3
    else if StartsWith(Lower(level), "short") then 4
    else 5
  }

  /** The catalog's short-term label, in any letter case, ranks after the numeric levels. */
  lemma ShortRanksFourth()
    ensures LevelSortValue("Short") == 4
    ensures LevelSortValue("SHORT TERM") == 4
    ensures LevelSortValue("400") == 5
  {
    assert Lower("Short") == "short";
    assert Lower("SHORT TERM") == "short term";
    assert "short" <= "short term";
  }

  /** The fixed priority of the tag-group sort. */
  const TagOrder: seq<Tag> := [CS1, CS2, CDS, CEL, DSAV, HCD]

  /** The tag-group loop, from position `i` of `TagOrder` on. */
  function TagIndexFrom(c: Course, i: nat): (r: nat)
    requires i <= |TagOrder|
    ensures i <= r <= |TagOrder|
    ensures r < |TagOrder| ==> HasTag(c, TagOrder[r])
    ensures forall j :: i <= j < r ==> !HasTag(c, TagOrder[j])
    decreases |TagOrder| - i
  {
    if i == |TagOrder| then |TagOrder|
    else if HasTag(c, TagOrder[i]) then i
    else TagIndexFrom(c, i + 1)
  }

  /** `getTagIndex`: the position of the first flag the course carries in `TagOrder`, or 6 for none. */
  function TagIndex(c: Course): (r: nat)
    ensures r <= 6
    ensures r < 6 ==> HasTag(c, TagOrder[r])
    ensures forall j :: 0 <= j < r ==> !HasTag(c, TagOrder[j])
  {
    TagIndexFrom(c, 0)
  }

  function Sign(x: int): int {
    if x < 0 then -1 else if x > 0 then 1 else 0
  }

  function SignReal(x: real): int {
    if x < 0.0 then -1 else if x > 0.0 then 1 else 0
  }

  /** The sign of the comparator chosen for `k`, applied to `a` and `b`. */
  function Compare(k: SortKey, a: Course, b: Course): int {
    match k
    case LevelAsc => Sign(LevelSortValue(a.level) - LevelSortValue(b.level))
    case LevelDesc => Sign(LevelSortValue(b.level) - LevelSortValue(a.level))
    case Department => LexCompare(a.department, b.department)
    case CreditsAsc => SignReal(a.credits - b.credits)
    case CreditsDesc => SignReal(b.credits - a.credits)
    case TagGroup => Sign(TagIndex(a) - TagIndex(b))
  }

  /** What "`a` may come before `b`" means for each key, stated on the course fields. */
  ghost predicate Precedes(k: SortKey, a: Course, b: Course) {
    match k
    case LevelAsc => LevelSortValue(a.level) <= LevelSortValue(b.level)
    case LevelDesc => LevelSortValue(b.level) <= LevelSortValue(a.level)
    case Department => LexLe(a.department, b.department)
    case CreditsAsc => a.credits <= b.credits
    case CreditsDesc => b.credits <= a.credits
    case TagGroup => TagIndex(a) <= TagIndex(b)
  }

  /** A non-positive comparator result is exactly the key order. */
  lemma CompareMeaning(k: SortKey, a: Course, b: Course)
    ensures Compare(k, a, b) <= 0 <==> Precedes(k, a, b)
  {
    if k == Department {
      LexCompareMeaning(a.department, b.department);
    }
  }

  /** Each comparator is antisymmetric in sign ... */
  lemma CompareFlip(k: SortKey, a: Course, b: Course)
    ensures Compare(k, a, b) == -Compare(k, b, a)
  {
    if k == Department {
      LexCompareFlip(a.department, b.department);
    }
  }

  /** Two courses tie under a key exactly when they agree on that key's field: equal departments, equal credits, equal ranks. */
  lemma CompareZero(k: SortKey, a: Course, b: Course)
    ensures k == Department ==> (Compare(k, a, b) == 0 <==> a.department == b.department)
    ensures k == CreditsAsc || k == CreditsDesc ==> (Compare(k, a, b) == 0 <==> a.credits == b.credits)
    ensures k == LevelAsc || k == LevelDesc ==> (Compare(k, a, b) == 0 <==> LevelSortValue(a.level) == LevelSortValue(b.level))
    ensures k == TagGroup ==> (Compare(k, a, b) == 0 <==> TagIndex(a) == TagIndex(b))
  {
    if k == Department {
      LexCompareZero(a.department, b.department);
    }
  }

  /** ... and transitive, so it is a total preorder the sort may rely on. */
  lemma CompareTrans(k: SortKey, a: Course, b: Course, c: Course)
    requires Compare(k, a, b) <= 0 && Compare(k, b, c) <= 0
    ensures Compare(k, a, c) <= 0
  {
    if k == Department {
      LexCompareTrans(a.department, b.department, c.department);
    }
  }

  /** The comparator the grid view passes to `sort` for key `k`. */
  function Comparator(k: SortKey): (Course, Course) -> int {
    (a, b) => Compare(k, a, b)
  }

  /** Swapping the arguments negates the comparator's sign. */
  ghost predicate FlipsAt(cmp: (Course, Course) -> int, a: Course, b: Course) {
    cmp(a, b) == -cmp(b, a)
  }

  /** "At most" chains through `b`. */
  ghost predicate ChainsAt(cmp: (Course, Course) -> int, a: Course, b: Course, c: Course) {
    cmp(a, b) <= 0 && cmp(b, c) <= 0 ==> cmp(a, c) <= 0
  }

  /**
   The sign laws a comparator must obey for `sort` to be well defined. The laws
   are instantiated only where a proof names `FlipsAt` or `ChainsAt`.
   */
  ghost predicate IsTotalPreorder(cmp: (Course, Course) -> int) {
    && (forall a, b :: FlipsAt(cmp, a, b))
    && (forall a, b, c :: ChainsAt(cmp, a, b, c))
  }

  /** Every comparator of the grid view obeys them. */
  lemma ComparatorIsTotalPreorder(k: SortKey)
    ensures IsTotalPreorder(Comparator(k))
  {
    forall a, b
      ensures FlipsAt(Comparator(k), a, b)
    {
      CompareFlip(k, a, b);
    }
    forall a, b, c
      ensures ChainsAt(Comparator(k), a, b, c)
    {
      if Compare(k, a, b) <= 0 && Compare(k, b, c) <= 0 {
        CompareTrans(k, a, b, c);
      }
    }
  }

  /** Ordered by `cmp`: no later element compares strictly below an earlier one. */
  predicate Sorted(cmp: (Course, Course) -> int, s: seq<Course>) {
    forall i, j :: 0 <= i < j < |s| ==> cmp(s[i], s[j]) <= 0
  }

  /** The elements of `s` that compare equal to `c`, in their order in `s`. */
  function Ties(cmp: (Course, Course) -> int, s: seq<Course>, c: Course): seq<Course> {
    Filter(x => cmp(x, c) == 0, s)
  }

  /** Insert `x` before the first element it does not exceed, so ahead of everything equal to it. */
  function Insert(cmp: (Course, Course) -> int, x: Course, s: seq<Course>): (r: seq<Course>)
    ensures multiset(r) == multiset(s) + multiset{x}
  {
    if |s| == 0 then [x]
    else if cmp(x, s[0]) <= 0 then [x] + s
    else
      assert s == [s[0]] + s[1..];
      [s[0]] + Insert(cmp, x, s[1..])
  }

  /** A stable insertion sort: the arrangement the source's stable `Array.prototype.sort` produces. */
  function StableSort(cmp: (Course, Course) -> int, s: seq<Course>): (r: seq<Course>)
    ensures multiset(r) == multiset(s)
  {
    if |s| == 0 then []
    else
      assert s == [s[0]] + s[1..];
      Insert(cmp, s[0], StableSort(cmp, s[1..]))
  }

  /** A sorted tail headed by an element at most each of its entries stays sorted. */
  lemma ConsSorted(cmp: (Course, Course) -> int, h: Course, t: seq<Course>)
    requires Sorted(cmp, t)
    requires forall k :: 0 <= k < |t| ==> cmp(h, t[k]) <= 0
    ensures Sorted(cmp, [h] + t)
  {
    var r := [h] + t;
    forall i, j | 0 <= i < j < |r|
      ensures cmp(r[i], r[j]) <= 0
    {
      assert r[j] == t[j - 1];
      if i > 0 {
        assert r[i] == t[i - 1];
      }
    }
  }

  lemma {:induction false} InsertSorted(cmp: (Course, Course) -> int, x: Course, s: seq<Course>)
    requires IsTotalPreorder(cmp)
    requires Sorted(cmp, s)
    ensures Sorted(cmp, Insert(cmp, x, s))
    decreases |s|
  {
    if |s| == 0 {
    } else if cmp(x, s[0]) <= 0 {
      forall k | 0 <= k < |s|
        ensures cmp(x, s[k]) <= 0
      {
        if k > 0 {
          assert cmp(s[0], s[k]) <= 0;
          assert ChainsAt(cmp, x, s[0], s[k]);
        }
      }
      ConsSorted(cmp, x, s);
    } else {
      InsertSorted(cmp, x, s[1..]);
      var t := Insert(cmp, x, s[1..]);
      assert FlipsAt(cmp, s[0], x);
      forall k | 0 <= k < |t|
        ensures cmp(s[0], t[k]) <= 0
      {
        var y := t[k];
        assert y in multiset(t);
        if y != x {
          assert y in multiset(s[1..]);
          var m :| 0 <= m < |s[1..]| && s[1..][m] == y;
          assert y == s[m + 1];
        }
      }
      ConsSorted(cmp, s[0], t);
    }
  }

  /** Filtering a sorted sequence leaves it sorted. */
  lemma {:induction false} FilterKeepsSorted(cmp: (Course, Course) -> int, p: Course -> bool, s: seq<Course>)
    requires Sorted(cmp, s)
    ensures Sorted(cmp, Filter(p, s))
    decreases |s|
  {
    if |s| > 0 {
      var t := Filter(p, s[1..]);
      FilterKeepsSorted(cmp, p, s[1..]);
      if p(s[0]) {
        FilterMembers(p, s[1..]);
        forall k | 0 <= k < |t|
          ensures cmp(s[0], t[k]) <= 0
        {
          assert t[k] in s[1..];
          var m :| 0 <= m < |s[1..]| && s[1..][m] == t[k];
          assert t[k] == s[m + 1];
        }
        ConsSorted(cmp, s[0], t);
      }
    }
  }

  lemma {:induction false} StableSortSorted(cmp: (Course, Course) -> int, s: seq<Course>)
    requires IsTotalPreorder(cmp)
    ensures Sorted(cmp, StableSort(cmp, s))
    decreases |s|
  {
    if |s| > 0 {
      StableSortSorted(cmp, s[1..]);
      InsertSorted(cmp, s[0], StableSort(cmp, s[1..]));
    }
  }

  /** Inserting `x` puts it ahead of every element tied with it. */
  lemma {:induction false} InsertTies(cmp: (Course, Course) -> int, x: Course, s: seq<Course>, c: Course)
    requires IsTotalPreorder(cmp)
    ensures Ties(cmp, Insert(cmp, x, s), c) ==
            (if cmp(x, c) == 0 then [x] + Ties(cmp, s, c) else Ties(cmp, s, c))
    decreases |s|
  {
    if |s| == 0 {
    } else if cmp(x, s[0]) <= 0 {
      assert ([x] + s)[1..] == s;
    } else {
      InsertTies(cmp, x, s[1..], c);
      var t := Insert(cmp, x, s[1..]);
      assert ([s[0]] + t)[1..] == t;
      assert cmp(x, c) == 0 ==> cmp(s[0], c) != 0 by {
        assert FlipsAt(cmp, c, s[0]);
        assert ChainsAt(cmp, x, c, s[0]);
      }
    }
  }

  /** Stability: for every tie class, the sort keeps the input's order. */
  lemma {:induction false} StableSortTies(cmp: (Course, Course) -> int, s: seq<Course>, c: Course)
    requires IsTotalPreorder(cmp)
    ensures Ties(cmp, StableSort(cmp, s), c) == Ties(cmp, s, c)
    decreases |s|
  {
    if |s| > 0 {
      StableSortTies(cmp, s[1..], c);
      InsertTies(cmp, s[0], StableSort(cmp, s[1..]), c);
    }
  }

  lemma TiesMembers(cmp: (Course, Course) -> int, r: seq<Course>, c: Course)
    ensures forall x :: x in Ties(cmp, r, c) <==> x in r && cmp(x, c) == 0
  {
    FilterMembers(x => cmp(x, c) == 0, r);
  }

  /** Every element lies in its own tie class. */
  lemma InOwnTies(cmp: (Course, Course) -> int, r: seq<Course>, i: int)
    requires IsTotalPreorder(cmp)
    requires 0 <= i < |r|
    ensures r[i] in Ties(cmp, r, r[i])
  {
    assert FlipsAt(cmp, r[i], r[i]);
    TiesMembers(cmp, r, r[i]);
  }

  /** The first element of a sorted sequence is at most any element of it. */
  lemma HeadIsLeast(cmp: (Course, Course) -> int, r: seq<Course>, y: Course)
    requires Sorted(cmp, r)
    requires |r| > 0 && y in r
    ensures cmp(r[0], y) <= 0 || r[0] == y
  {
    var j :| 0 <= j < |r| && r[j] == y;
    if j > 0 {
      assert cmp(r[0], r[j]) <= 0;
    }
  }

  /** Two sorted sequences with equal tie classes start with the same element. */
  lemma SameHead(cmp: (Course, Course) -> int, r1: seq<Course>, r2: seq<Course>)
    requires IsTotalPreorder(cmp)
    requires Sorted(cmp, r1) && Sorted(cmp, r2)
    requires forall c :: Ties(cmp, r1, c) == Ties(cmp, r2, c)
    requires |r1| > 0
    ensures |r2| > 0 && r1[0] == r2[0]
  {
    var a := r1[0];
    InOwnTies(cmp, r1, 0);
    assert Ties(cmp, r1, a) == Ties(cmp, r2, a);
    TiesMembers(cmp, r2, a);
    assert a in r2;
    var b := r2[0];
    InOwnTies(cmp, r2, 0);
    assert Ties(cmp, r1, b) == Ties(cmp, r2, b);
    TiesMembers(cmp, r1, b);
    assert b in r1;
    HeadIsLeast(cmp, r1, b);
    HeadIsLeast(cmp, r2, a);
    assert FlipsAt(cmp, a, b);
    assert FlipsAt(cmp, a, a);
    assert cmp(b, a) == 0;
    assert Ties(cmp, r2, a)[0] == b;
    assert Ties(cmp, r1, a)[0] == a;
  }

  /**
   A sorted arrangement is fixed by its tie classes: two sorted sequences
   with the same elements in every tie class, in the same order, are equal.
   */
  lemma {:induction false} SortedTiesUnique(cmp: (Course, Course) -> int, r1: seq<Course>, r2: seq<Course>)
    requires IsTotalPreorder(cmp)
    requires Sorted(cmp, r1) && Sorted(cmp, r2)
    requires forall c :: Ties(cmp, r1, c) == Ties(cmp, r2, c)
    ensures r1 == r2
    decreases |r1|
  {
    if |r1| > 0 {
      SameHead(cmp, r1, r2);
      forall c
        ensures Ties(cmp, r1[1..], c) == Ties(cmp, r2[1..], c)
      {
        var h: seq<Course> := if cmp(r1[0], c) == 0 then [r1[0]] else [];
        assert Ties(cmp, r1, c) == h + Ties(cmp, r1[1..], c);
        assert Ties(cmp, r2, c) == h + Ties(cmp, r2[1..], c);
        assert Ties(cmp, r1, c) == Ties(cmp, r2, c);
        assert (h + Ties(cmp, r1[1..], c))[|h|..] == Ties(cmp, r1[1..], c);
        assert (h + Ties(cmp, r2[1..], c))[|h|..] == Ties(cmp, r2[1..], c);
      }
      SortedTiesUnique(cmp, r1[1..], r2[1..]);
      assert r1 == [r1[0]] + r1[1..] && r2 == [r2[0]] + r2[1..];
    } else if |r2| > 0 {
      SameHead(cmp, r2, r1);
    }
  }

  /** `StableSort` is the one sorted arrangement that keeps every tie class in input order. */
  lemma StableSortIsUnique(cmp: (Course, Course) -> int, s: seq<Course>, t: seq<Course>)
    requires IsTotalPreorder(cmp)
    requires Sorted(cmp, t)
    requires forall c :: Ties(cmp, t, c) == Ties(cmp, s, c)
    ensures t == StableSort(cmp, s)
  {
    StableSortSorted(cmp, s);
    forall c
      ensures Ties(cmp, t, c) == Ties(cmp, StableSort(cmp, s), c)
    {
      StableSortTies(cmp, s, c);
    }
    SortedTiesUnique(cmp, t, StableSort(cmp, s));
  }

  /** The sort step of the grid view: a recognised key sorts stably, anything else is a no-op. */
  function SortCourses(sortBy: string, s: seq<Course>): seq<Course> {
    match ParseSortKey(sortBy)
    case None => s
    case Some(k) => StableSort(Comparator(k), s)
  }

  /**
   The sorted list is a permutation of its input, ordered by the chosen key
   and stable; an unrecognised `sortBy` returns the input unchanged.
   */
  lemma SortCoursesSpec(sortBy: string, s: seq<Course>)
    ensures multiset(SortCourses(sortBy, s)) == multiset(s)
    ensures ParseSortKey(sortBy).None? ==> SortCourses(sortBy, s) == s
    ensures ParseSortKey(sortBy).Some? ==>
      var k, r := ParseSortKey(sortBy).value, SortCourses(sortBy, s);
      && (forall i, j :: 0 <= i < j < |r| ==> Precedes(k, r[i], r[j]))
      && (forall c :: Ties(Comparator(k), r, c) == Ties(Comparator(k), s, c))
  {
    if ParseSortKey(sortBy).Some? {
      var k, r := ParseSortKey(sortBy).value, SortCourses(sortBy, s);
      ComparatorIsTotalPreorder(k);
      StableSortSorted(Comparator(k), s);
      forall i, j | 0 <= i < j < |r|
        ensures Precedes(k, r[i], r[j])
      {
        CompareMeaning(k, r[i], r[j]);
      }
      forall c
        ensures Ties(Comparator(k), r, c) == Ties(Comparator(k), s, c)
      {
        StableSortTies(Comparator(k), s, c);
      }
    }
  }

  /** Two courses the chosen key cannot tell apart keep their input order. */
  lemma EqualKeysKeepOrder(k: SortKey, a: Course, b: Course)
    requires Compare(k, a, b) == 0
    ensures SortCourses(KeyName(k), [a, b]) == [a, b]
  {
    ParseKeyName(k);
    var cmp := Comparator(k);
    assert [a, b][1..] == [b];
    assert [b][1..] == [];
    assert StableSort(cmp, [b]) == [b];
    assert StableSort(cmp, [a, b]) == Insert(cmp, a, [b]);
  }
}

=== FILE: optional.dfy ===
/** A nullable value: `None` models the source's `null`. */
module Optional {

  datatype Option<+T> = None | Some(value: T)

}

=== FILE: pinning.dfy ===
/**
 The pinning step of the grid view: the sorted list is split into its
 selected and unselected courses, and the selected ones are shown first.
 */
module Pinning {
  import opened Seqs
  import opened Catalog

  /** `[...selectedSorted, ...unselectedSorted]`. */
  function Pin(sorted: seq<Course>, selected: seq<int>): seq<Course> {
    Chosen(sorted, selected) + Unchosen(sorted, selected)
  }

  /** Pinning reorders but neither drops nor duplicates a course. */
  lemma PinPermutes(sorted: seq<Course>, selected: seq<int>)
    ensures multiset(Pin(sorted, selected)) == multiset(sorted)
  {
    FilterSplit(c => IsSelected(selected, c), c => !IsSelected(selected, c), sorted);
  }

  /** The pinned list is the selected group followed by the unselected group, position by position. */
  lemma PinLayout(sorted: seq<Course>, selected: seq<int>)
    ensures var a, b, r := Chosen(sorted, selected), Unchosen(sorted, selected), Pin(sorted, selected);
      && |r| == |a| + |b|
      && (forall k :: 0 <= k < |a| ==> r[k] == a[k] && IsSelected(selected, r[k]))
      && (forall k :: |a| <= k < |r| ==> r[k] == b[k - |a|] && !IsSelected(selected, r[k]))
  {
    var a, b := Chosen(sorted, selected), Unchosen(sorted, selected);
    FilterMembers(c => IsSelected(selected, c), sorted);
    FilterMembers(c => !IsSelected(selected, c), sorted);
    assert forall k :: 0 <= k < |a| ==> a[k] in a;
    assert forall k :: 0 <= k < |b| ==> b[k] in b;
  }

  /** Every selected course comes before every unselected one. */
  lemma PinSelectedFirst(sorted: seq<Course>, selected: seq<int>)
    ensures var r := Pin(sorted, selected);
      forall i, j :: 0 <= i < j < |r| && IsSelected(selected, r[j]) ==> IsSelected(selected, r[i])
  {
    PinLayout(sorted, selected);
  }

  /** Each group keeps exactly the order it had in the sorted list. */
  lemma PinKeepsGroupOrder(sorted: seq<Course>, selected: seq<int>)
    ensures Chosen(Pin(sorted, selected), selected) == Chosen(sorted, selected)
    ensures Unchosen(Pin(sorted, selected), selected) == Unchosen(sorted, selected)
  {
    var p, q := c => IsSelected(selected, c), c => !IsSelected(selected, c);
    var a, b := Chosen(sorted, selected), Unchosen(sorted, selected);
    FilterConcat(p, a, b);
    FilterConcat(q, a, b);
    FilterMembers(p, sorted);
    FilterMembers(q, sorted);
    FilterAll(p, a);
    FilterNone(p, b);
    FilterNone(q, a);
    FilterAll(q, b);
  }

  /** Pinning an already pinned list changes nothing. */
  lemma PinIdempotent(sorted: seq<Course>, selected: seq<int>)
    ensures Pin(Pin(sorted, selected), selected) == Pin(sorted, selected)
  {
    PinKeepsGroupOrder(sorted, selected);
  }

  /** Only membership in `selected` matters, not its order or repetitions. */
  lemma PinMembershipOnly(sorted: seq<Course>, sel1: seq<int>, sel2: seq<int>)
    requires forall id :: id in sel1 <==> id in sel2
    ensures Pin(sorted, sel1) == Pin(sorted, sel2)
  {
    FilterExt(c => IsSelected(sel1, c), c => IsSelected(sel2, c), sorted);
    FilterExt(c => !IsSelected(sel1, c), c => !IsSelected(sel2, c), sorted);
  }
}

=== FILE: progress.dfy ===
/**
 The progress panel's numbers: total credits, the number of 300-level
 courses and how many of the four degree attributes are covered, all taken
 over every selected catalog course whatever the filter shows, and the
 per-programme targets the rings are drawn against.
 */
module Progress {
  import opened Seqs
  import opened Catalog
  import opened StateUpdates

  datatype ProgressType = Major | Minor | GEC

  /** `maxCreditsByType`. */
  function MaxCredits(pt: ProgressType): real {
    match pt
    case Major => 10.0
    case Minor => 6.0
    case GEC => 4.0
  }

  /** The 300-level target of a major. */
  const MaxLevel300: nat := 2

  /** `attributeKeys`: the flags that count as degree attributes. */
  const AttributeKeys: seq<Tag> := [DSAV, CDS, HCD, CEL]

  /** `reduce((sum, course) => sum + course.credits, 0)`, folding from the left. */
  function SumCredits(s: seq<Course>): real {
    if |s| == 0 then 0.0 else SumCredits(s[..|s| - 1]) + s[|s| - 1].credits
  }

  lemma {:induction false} SumCreditsConcat(a: seq<Course>, b: seq<Course>)
    ensures SumCredits(a + b) == SumCredits(a) + SumCredits(b)
    decreases |b|
  {
    if |b| > 0 {
      assert (a + b)[..|a + b| - 1] == a + b[..|b| - 1];
      SumCreditsConcat(a, b[..|b| - 1]);
    } else {
      assert a + b == a;
    }
  }

  predicate IsLevel300(c: Course) {
    c.level == "300"
  }

  function Level300Count(s: seq<Course>): nat {
    |Filter(IsLevel300, s)|
  }

  /** `some` course of `s` carries attribute `a`. */
  predicate SomeCarries(s: seq<Course>, a: Tag) {
    exists c :: c in s && HasTag(c, a)
  }

  /** The attribute keys covered by `s`, in `AttributeKeys` order. */
  function CoveredAttributes(s: seq<Course>): seq<Tag> {
    Filter(a => SomeCarries(s, a), AttributeKeys)
  }

  datatype Summary = Summary(totalCredits: real, level300Count: nat, attributeCount: nat)

  /** The three panel numbers, computed from all selected catalog courses. */
  function Aggregate(catalog: seq<Course>, selected: seq<int>): (p: Summary)
    ensures p.level300Count <= |Chosen(catalog, selected)| <= |catalog|
    ensures p.attributeCount <= |AttributeKeys|
  {
    var chosen := Chosen(catalog, selected);
    Summary(SumCredits(chosen), Level300Count(chosen), |CoveredAttributes(chosen)|)
  }

  /**
   The attribute count is coverage, not occurrence: the number of distinct
   attributes at least one selected course carries.
   */
  lemma AttributeCountIsCoverage(catalog: seq<Course>, selected: seq<int>)
    ensures var chosen := Chosen(catalog, selected);
      Aggregate(catalog, selected).attributeCount
        == |set a | a in AttributeKeys && SomeCarries(chosen, a)|
  {
    var chosen := Chosen(catalog, selected);
    var p := a => SomeCarries(chosen, a);
    assert NoDup(AttributeKeys);
    FilterCard(p, AttributeKeys, set a | a in AttributeKeys && SomeCarries(chosen, a));
  }

  /**
   However many selected courses carry `dsav`, it counts once: when every
   selected course carries `dsav` and none of the other three attributes, the
   attribute count is 1.
   */
  lemma RepeatedAttributeCountsOnce(catalog: seq<Course>, selected: seq<int>)
    requires Chosen(catalog, selected) != []
    requires forall c :: c in Chosen(catalog, selected) ==>
               HasTag(c, DSAV) && !HasTag(c, CDS) && !HasTag(c, HCD) && !HasTag(c, CEL)
    ensures Aggregate(catalog, selected).attributeCount == 1
  {
    OnlyDsavCovered(Chosen(catalog, selected));
    AttributeCountIsCoverage(catalog, selected);
  }

  lemma OnlyDsavCovered(chosen: seq<Course>)
    requires chosen != []
    requires forall c :: c in chosen ==>
               HasTag(c, DSAV) && !HasTag(c, CDS) && !HasTag(c, HCD) && !HasTag(c, CEL)
    ensures (set a | a in AttributeKeys && SomeCarries(chosen, a)) == {DSAV}
  {
    assert SomeCarries(chosen, DSAV) by {
      assert chosen[0] in chosen;
    }
  }

  /** The panel depends on which ids are selected, not on their order or repetitions. */
  lemma AggregateMembershipOnly(catalog: seq<Course>, sel1: seq<int>, sel2: seq<int>)
    requires forall id :: id in sel1 <==> id in sel2
    ensures Aggregate(catalog, sel1) == Aggregate(catalog, sel2)
  {
    FilterExt(c => IsSelected(sel1, c), c => IsSelected(sel2, c), catalog);
  }

  /** Clicking a course twice leaves the panel as it was. */
  lemma ToggleTwiceRestoresPanel(catalog: seq<Course>, selected: seq<int>, id: int)
    ensures Aggregate(catalog, Toggle(Toggle(selected, id), id)) == Aggregate(catalog, selected)
  {
    ToggleTwice(selected, id);
    AggregateMembershipOnly(catalog, Toggle(Toggle(selected, id), id), selected);
  }

  /** Adding an id no course of `s` has changes nothing chosen from `s`. */
  lemma ChosenIgnoresAbsentId(s: seq<Course>, selected: seq<int>, id: int)
    requires forall c :: c in s ==> c.id != id
    ensures Chosen(s, selected + [id]) == Chosen(s, selected)
  {
    FilterExt(c => IsSelected(selected + [id], c), c => IsSelected(selected, c), s);
  }

  /** With unique ids, no other catalog entry shares the id of entry `i`. */
  lemma OthersHaveOtherIds(catalog: seq<Course>, i: int)
    requires UniqueIds(catalog) && 0 <= i < |catalog|
    ensures forall c :: c in catalog[..i] ==> c.id != catalog[i].id
    ensures forall c :: c in catalog[i + 1..] ==> c.id != catalog[i].id
  {
    forall c | c in catalog[..i]
      ensures c.id != catalog[i].id
    {
      var j :| 0 <= j < i && catalog[..i][j] == c;
      assert catalog[j] == c;
    }
    forall c | c in catalog[i + 1..]
      ensures c.id != catalog[i].id
    {
      var j :| 0 <= j < |catalog| - i - 1 && catalog[i + 1..][j] == c;
      assert catalog[i + 1 + j] == c;
    }
  }

  /** Choosing from a catalog split around entry `i`. */
  lemma ChosenAround(catalog: seq<Course>, selected: seq<int>, i: int)
    requires 0 <= i < |catalog|
    ensures Chosen(catalog, selected)
         == Chosen(catalog[..i], selected)
            + (if IsSelected(selected, catalog[i]) then [catalog[i]] else [])
            + Chosen(catalog[i + 1..], selected)
  {
    FilterAround(c => IsSelected(selected, c), catalog, i);
  }

  /** Selecting a new catalog course puts exactly that course among the chosen ones, in catalog order. */
  lemma ChosenAfterSelect(catalog: seq<Course>, selected: seq<int>, i: int)
    requires UniqueIds(catalog)
    requires 0 <= i < |catalog| && catalog[i].id !in selected
    ensures Chosen(catalog, selected + [catalog[i].id])
         == Chosen(catalog[..i], selected) + [catalog[i]] + Chosen(catalog[i + 1..], selected)
    ensures Chosen(catalog, selected)
         == Chosen(catalog[..i], selected) + Chosen(catalog[i + 1..], selected)
  {
    var id := catalog[i].id;
    ChosenAround(catalog, selected, i);
    ChosenAround(catalog, selected + [id], i);
    OthersHaveOtherIds(catalog, i);
    ChosenIgnoresAbsentId(catalog[..i], selected, id);
    ChosenIgnoresAbsentId(catalog[i + 1..], selected, id);
  }

  /**
   With unique ids, selecting a course not yet selected adds its credits to
   the total, counts it if it is 300-level, and never lowers the attribute count.
   */
  lemma SelectAddsCourse(catalog: seq<Course>, selected: seq<int>, i: int)
    requires UniqueIds(catalog)
    requires 0 <= i < |catalog| && catalog[i].id !in selected
    ensures var before, after := Aggregate(catalog, selected), Aggregate(catalog, Toggle(selected, catalog[i].id));
      && after.totalCredits == before.totalCredits + catalog[i].credits
      && after.level300Count == before.level300Count + (if IsLevel300(catalog[i]) then 1 else 0)
      && after.attributeCount >= before.attributeCount
  {
    var id := catalog[i].id;
    ChosenAfterSelect(catalog, selected, i);
    var a, b := Chosen(catalog[..i], selected), Chosen(catalog[i + 1..], selected);
    SumCreditsConcat(a + [catalog[i]], b);
    SumCreditsConcat(a, [catalog[i]]);
    SumCreditsConcat(a, b);
    assert SumCredits([catalog[i]]) == catalog[i].credits by {
      assert [catalog[i]][..0] == [];
    }
    FilterConcat(IsLevel300, a + [catalog[i]], b);
    FilterConcat(IsLevel300, a, [catalog[i]]);
    FilterConcat(IsLevel300, a, b);
    var before, after := Chosen(catalog, selected), Chosen(catalog, selected + [id]);
    assert forall t :: SomeCarries(before, t) ==> SomeCarries(after, t);
    FilterMono(t => SomeCarries(before, t), t => SomeCarries(after, t), AttributeKeys);
    SubseqLength(CoveredAttributes(before), CoveredAttributes(after));
  }

  datatype RingKind = TotalCreditsRing | Level300Ring | AttributesRing

  /** One progress ring: the value shown against its target. */
  datatype Ring = Ring(kind: RingKind, value: real, max: real)

  /** The rings the panel draws for a programme type. */
  function Rings(pt: ProgressType, p: Summary): seq<Ring> {
    [Ring(TotalCreditsRing, p.totalCredits, MaxCredits(pt))]
    + (if pt == Major then [Ring(Level300Ring, p.level300Count as real, MaxLevel300 as real)] else [])
    + (if pt == Major || pt == Minor
       then [Ring(AttributesRing, p.attributeCount as real, |AttributeKeys| as real)]
       else [])
  }

  /**
   The programme type only chooses which rings appear and the credit target:
   a ring shown under two types shows the same value.
   */
  lemma RingsShareValues(pt1: ProgressType, pt2: ProgressType, p: Summary, i: int, j: int)
    requires 0 <= i < |Rings(pt1, p)| && 0 <= j < |Rings(pt2, p)|
    requires Rings(pt1, p)[i].kind == Rings(pt2, p)[j].kind
    ensures Rings(pt1, p)[i].value == Rings(pt2, p)[j].value
    ensures Rings(pt1, p)[i].kind != TotalCreditsRing ==> Rings(pt1, p)[i].max == Rings(pt2, p)[j].max
  {
  }

  /** Which rings each programme type shows. */
  lemma RingsShown(pt: ProgressType, p: Summary)
    ensures Rings(pt, p)[0] == Ring(TotalCreditsRing, p.totalCredits, MaxCredits(pt))
    ensures (exists r :: r in Rings(pt, p) && r.kind == Level300Ring) <==> pt == Major
    ensures (exists r :: r in Rings(pt, p) && r.kind == AttributesRing) <==> pt != GEC
  {
    var rs := Rings(pt, p);
    if pt == Major {
      assert rs[1].kind == Level300Ring && rs[2].kind == AttributesRing;
    } else if pt == Minor {
      assert rs[1].kind == AttributesRing;
    }
  }
}

=== FILE: scenarios.dfy ===
/**
 Worked examples on a three-course catalog: the progress numbers for a
 selection, and the rendered order under a filter, a sort key and a pin.
 The three courses are described by the fields that matter, so the facts
 hold for every catalog of that shape.
 */
module Scenarios {
  import opened Optional
  import opened Seqs
  import opened Catalog
  import opened CourseFilter
  import opened CourseSort
  import opened Pinning
  import opened Progress
  import opened CourseGrid

  /** An introductory 100-level course (id 1), a half-credit and a full-credit 300-level course with `dsav` (ids 2 and 3). */
  predicate SampleShape(intro: Course, half: Course, full: Course) {
    && intro.id == 1 && half.id == 2 && full.id == 3
    && intro.level == "100" && half.level == "300" && full.level == "300"
    && half.credits == 0.5 && full.credits == 1.0
    && half.dsav && !half.cds && !half.hcd && !half.cel
    && full.dsav && !full.cds && !full.hcd && !full.cel
  }

  /** Filtering three courses, one at a time. */
  lemma FilterThree(p: Course -> bool, a: Course, b: Course, c: Course)
    ensures Filter(p, [a, b, c])
         == (if p(a) then [a] else []) + (if p(b) then [b] else []) + (if p(c) then [c] else [])
  {
    assert [a, b, c] == [a] + [b] + [c];
    FilterConcat3(p, [a], [b], [c]);
    FilterSingle(p, a);
    FilterSingle(p, b);
    FilterSingle(p, c);
  }

  /** Selecting the two 300-level courses of a major: 1.5 credits, two 300-level courses, one attribute. */
  lemma SampleProgress(intro: Course, half: Course, full: Course)
    requires SampleShape(intro, half, full)
    ensures Aggregate([intro, half, full], [2, 3]) == Summary(1.5, 2, 1)
  {
    var catalog := [intro, half, full];
    FilterThree(c => IsSelected([2, 3], c), intro, half, full);
    var chosen := Chosen(catalog, [2, 3]);
    assert chosen == [half, full];
    assert SumCredits([half]) == 0.5 by {
      assert [half][..0] == [];
    }
    assert SumCredits([half, full]) == SumCredits([half]) + full.credits by {
      assert [half, full][..1] == [half];
    }
    assert Filter(IsLevel300, chosen) == chosen by {
      FilterAll(IsLevel300, chosen);
    }
    RepeatedAttributeCountsOnce(catalog, [2, 3]);
  }

  lemma SampleFilter(intro: Course, half: Course, full: Course)
    requires SampleShape(intro, half, full)
    ensures FilteredCourses([intro, half, full], Initial.(level := Some("300"))) == [half, full]
  {
    var f := Initial.(level := Some("300"));
    assert !Matches(f, intro);
    assert Matches(f, half) && Matches(f, full);
    FilterThree(c => Matches(f, c), intro, half, full);
  }

  lemma SampleSort(half: Course, full: Course)
    requires half.credits == 0.5 && full.credits == 1.0
    ensures SortCourses("credits-desc", [half, full]) == [full, half]
  {
    ParseKeyName(CreditsDesc);
    var cmp := Comparator(CreditsDesc);
    assert cmp(half, full) == 1;
    assert [half, full][1..] == [full];
    assert [full][1..] == [];
    assert StableSort(cmp, [half, full]) == Insert(cmp, half, [full]) == [full, half];
  }

  lemma SamplePin(half: Course, full: Course)
    requires half.id == 2 && full.id == 3
    ensures Pin([full, half], [2]) == [half, full]
  {
    var p, q := c => IsSelected([2], c), c => !IsSelected([2], c);
    FilterConcat(p, [full], [half]);
    FilterConcat(q, [full], [half]);
    FilterSingle(p, full);
    FilterSingle(p, half);
    FilterSingle(q, full);
    FilterSingle(q, half);
  }

  /**
   Filtering to level 300 and sorting by descending credits puts the
   full-credit course first; pinning the selected half-credit course moves
   it back in front.
   */
  lemma SamplePinnedOrder(intro: Course, half: Course, full: Course)
    requires SampleShape(intro, half, full)
    ensures DisplayList([intro, half, full], Initial.(level := Some("300")), "credits-desc", [2]) == [half, full]
  {
    SampleFilter(intro, half, full);
    SampleSort(half, full);
    SamplePin(half, full);
  }
}

=== FILE: seqs.dfy ===
/**
 Generic sequence helpers shared by the catalog engine: an order-preserving
 filter (the source's `Array.prototype.filter`), the subsequence relation and
 duplicate-freedom, with the facts about them the engine's proofs rely on.
 */
module Seqs {

  /** The elements of `s` satisfying `p`, in their original order. */
  function Filter<T(==)>(p: T -> bool, s: seq<T>): (r: seq<T>)
    ensures |r| <= |s|
  {
    if |s| == 0 then []
    else
      (if p(s[0]) then [s[0]] else []) + Filter(p, s[1..])
  }

  lemma {:induction false} FilterMembers<T(!new)>(p: T -> bool, s: seq<T>)
    ensures forall x :: x in Filter(p, s) <==> x in s && p(x)
    decreases |s|
  {
    if |s| > 0 {
      FilterMembers(p, s[1..]);
      assert s == [s[0]] + s[1..];
    }
  }

  /** `a` can be obtained from `b` by deleting elements. */
  predicate IsSubseq<T(==)>(a: seq<T>, b: seq<T>)
    decreases |b|
  {
    || |a| == 0
    || (&& |b| > 0
        && ((a[0] == b[0] && IsSubseq(a[1..], b[1..])) || IsSubseq(a, b[1..])))
  }

  /** No element occurs twice. */
  predicate NoDup<T(==)>(s: seq<T>) {
    forall i, j :: 0 <= i < j < |s| ==> s[i] != s[j]
  }

  lemma {:induction false} FilterConcat<T(!new)>(p: T -> bool, a: seq<T>, b: seq<T>)
    ensures Filter(p, a + b) == Filter(p, a) + Filter(p, b)
    decreases |a|
  {
    if |a| == 0 {
      assert a + b == b;
    } else {
      var h := if p(a[0]) then [a[0]] else [];
      assert (a + b)[0] == a[0];
      assert (a + b)[1..] == a[1..] + b;
      assert Filter(p, a + b) == h + Filter(p, a[1..] + b);
      FilterConcat(p, a[1..], b);
      assert Filter(p, a) == h + Filter(p, a[1..]);
      assert h + (Filter(p, a[1..]) + Filter(p, b)) == (h + Filter(p, a[1..])) + Filter(p, b);
    }
  }

  /** A one-element sequence is kept or dropped whole. */
  lemma FilterSingle<T(!new)>(p: T -> bool, x: T)
    ensures Filter(p, [x]) == if p(x) then [x] else []
  {
    assert [x][1..] == [];
  }

  lemma FilterConcat3<T(!new)>(p: T -> bool, a: seq<T>, b: seq<T>, c: seq<T>)
    ensures Filter(p, a + b + c) == Filter(p, a) + Filter(p, b) + Filter(p, c)
  {
    FilterConcat(p, a + b, c);
    FilterConcat(p, a, b);
  }

  lemma SplitAt<T(!new)>(s: seq<T>, i: int)
    requires 0 <= i < |s|
    ensures s == s[..i] + [s[i]] + s[i + 1..]
  {
  }

  /** Filtering around position `i`. */
  lemma FilterAround<T(!new)>(p: T -> bool, s: seq<T>, i: int)
    requires 0 <= i < |s|
    ensures Filter(p, s) == Filter(p, s[..i]) + Filter(p, [s[i]]) + Filter(p, s[i + 1..])
  {
    SplitAt(s, i);
    FilterConcat3(p, s[..i], [s[i]], s[i + 1..]);
  }

  lemma {:induction false} FilterIsSubseq<T(!new)>(p: T -> bool, s: seq<T>)
    ensures IsSubseq(Filter(p, s), s)
    decreases |s|
  {
    if |s| > 0 {
      FilterIsSubseq(p, s[1..]);
      var r := Filter(p, s[1..]);
      if p(s[0]) {
        assert Filter(p, s) == [s[0]] + r;
        assert ([s[0]] + r)[1..] == r;
      } else {
        assert Filter(p, s) == r;
      }
    }
  }

  /** Filtering with a weaker predicate keeps at least what a stronger one keeps, in order. */
  lemma {:induction false} FilterMono<T(!new)>(p: T -> bool, q: T -> bool, s: seq<T>)
    requires forall x :: x in s && p(x) ==> q(x)
    ensures IsSubseq(Filter(p, s), Filter(q, s))
    decreases |s|
  {
    if |s| > 0 {
      FilterMono(p, q, s[1..]);
      var a, b := Filter(p, s[1..]), Filter(q, s[1..]);
      if p(s[0]) {
        assert Filter(p, s) == [s[0]] + a && Filter(q, s) == [s[0]] + b;
        assert ([s[0]] + a)[1..] == a && ([s[0]] + b)[1..] == b;
      } else if q(s[0]) {
        assert Filter(p, s) == a && Filter(q, s) == [s[0]] + b;
        assert ([s[0]] + b)[1..] == b;
      } else {
        assert Filter(p, s) == a && Filter(q, s) == b;
      }
    }
  }

  /** Two predicates that agree on `s` filter it identically. */
  lemma {:induction false} FilterExt<T(!new)>(p: T -> bool, q: T -> bool, s: seq<T>)
    requires forall x :: x in s ==> p(x) == q(x)
    ensures Filter(p, s) == Filter(q, s)
    decreases |s|
  {
    if |s| > 0 {
      FilterExt(p, q, s[1..]);
    }
  }

  lemma {:induction false} FilterAll<T(!new)>(p: T -> bool, s: seq<T>)
    requires forall x :: x in s ==> p(x)
    ensures Filter(p, s) == s
    decreases |s|
  {
    if |s| > 0 {
      FilterAll(p, s[1..]);
      assert [s[0]] + s[1..] == s;
    }
  }

  lemma {:induction false} FilterNone<T(!new)>(p: T -> bool, s: seq<T>)
    requires forall x :: x in s ==> !p(x)
    ensures Filter(p, s) == []
    decreases |s|
  {
    if |s| > 0 {
      FilterNone(p, s[1..]);
    }
  }

  /** Splitting `s` by `p` and its negation loses and invents nothing. */
  lemma {:induction false} FilterSplit<T(!new)>(p: T -> bool, q: T -> bool, s: seq<T>)
    requires forall x :: q(x) == !p(x)
    ensures multiset(Filter(p, s)) + multiset(Filter(q, s)) == multiset(s)
    decreases |s|
  {
    if |s| > 0 {
      FilterSplit(p, q, s[1..]);
      assert s == [s[0]] + s[1..];
    }
  }

  lemma {:induction false} FilterNoDup<T(!new)>(p: T -> bool, s: seq<T>)
    requires NoDup(s)
    ensures NoDup(Filter(p, s))
    decreases |s|
  {
    if |s| > 0 {
      FilterNoDup(p, s[1..]);
      var r := Filter(p, s[1..]);
      FilterMembers(p, s[1..]);
      assert s[0] !in s[1..];
      assert s[0] !in r;
      var h := if p(s[0]) then [s[0]] else [];
      assert Filter(p, s) == h + r;
      forall i, j | 0 <= i < j < |h + r|
        ensures (h + r)[i] != (h + r)[j]
      {
        if |h| == 1 && i == 0 {
          assert (h + r)[j] == r[j - 1];
        }
      }
    }
  }

  /** A duplicate-free sequence has as many distinct elements as it has positions. */
  lemma {:induction false} NoDupCard<T(!new)>(s: seq<T>)
    requires NoDup(s)
    ensures |set x | x in s| == |s|
    decreases |s|
  {
    if |s| > 0 {
      NoDupCard(s[1..]);
      assert (set x | x in s) == {s[0]} + (set x | x in s[1..]);
      assert s[0] !in s[1..];
    }
  }

  /** Filtering a duplicate-free sequence keeps one position per distinct kept element. */
  lemma FilterCard<T(!new)>(p: T -> bool, s: seq<T>, kept: set<T>)
    requires NoDup(s)
    requires forall x :: x in kept <==> x in s && p(x)
    ensures |Filter(p, s)| == |kept|
  {
    var r := Filter(p, s);
    FilterNoDup(p, s);
    NoDupCard(r);
    FilterMembers(p, s);
    forall x | x in r
      ensures x in kept
    {
      assert x in s && p(x);
    }
    forall x | x in kept
      ensures x in r
    {
    }
    assert (set x | x in r) == kept;
  }

  lemma {:induction false} SubseqLength<T(!new)>(a: seq<T>, b: seq<T>)
    requires IsSubseq(a, b)
    ensures |a| <= |b|
    decreases |b|
  {
    if |a| > 0 {
      if a[0] == b[0] && IsSubseq(a[1..], b[1..]) {
        SubseqLength(a[1..], b[1..]);
      } else {
        SubseqLength(a, b[1..]);
      }
    }
  }
}

=== FILE: state_updates.dfy ===
/**
 The state updaters behind the grid view's controls: the list toggle used
 for both the selection and the tag filter, the radio toggle used for level,
 credits and department, the remove buttons of the filter pills, and "Clear All".
 */
module StateUpdates {
  import opened Optional
  import opened Seqs
  import opened Catalog
  import opened CourseFilter

  /** `prev.filter(y => y !== x)`: every occurrence of `x` dropped, the rest kept in order. */
  function Remove<T(==,!new)>(prev: seq<T>, x: T): (r: seq<T>)
    ensures x !in r
    ensures forall y :: y != x ==> (y in r <==> y in prev)
    ensures IsSubseq(r, prev)
    ensures multiset(r) == multiset(prev)[x := 0]
    ensures NoDup(prev) ==> NoDup(r)
  {
    RemoveCount(prev, x);
    FilterNoDupHolds(prev, x);
    FilterMembers(y => y != x, prev);
    FilterIsSubseq(y => y != x, prev);
    Filter(y => y != x, prev)
  }

  /** `prev.includes(x) ? prev.filter(y => y !== x) : [...prev, x]`. */
  function Toggle<T(==,!new)>(prev: seq<T>, x: T): (r: seq<T>)
    ensures x in r <==> x !in prev
    ensures forall y :: y != x ==> (y in r <==> y in prev)
    ensures x in prev ==> IsSubseq(r, prev) && multiset(r) == multiset(prev)[x := 0]
    ensures x !in prev ==> r == prev + [x]
    ensures x !in prev ==> multiset(r) == multiset(prev) + multiset{x}
    ensures NoDup(prev) ==> NoDup(r)
  {
    if x in prev then Remove(prev, x) else prev + [x]
  }

  /** Filtering out `x` removes all of its copies and keeps every other element's count. */
  lemma {:induction false} RemoveCount<T(!new)>(prev: seq<T>, x: T)
    ensures multiset(Filter(y => y != x, prev)) == multiset(prev)[x := 0]
    decreases |prev|
  {
    if |prev| > 0 {
      RemoveCount(prev[1..], x);
      assert prev == [prev[0]] + prev[1..];
    }
  }

  lemma FilterNoDupHolds<T(!new)>(prev: seq<T>, x: T)
    ensures NoDup(prev) ==> NoDup(Filter(y => y != x, prev))
  {
    if NoDup(prev) {
      FilterNoDup(y => y != x, prev);
    }
  }

  /** Toggling the same value twice restores membership; from absent it restores the very list. */
  lemma ToggleTwice<T(!new)>(prev: seq<T>, x: T)
    ensures forall y :: y in Toggle(Toggle(prev, x), x) <==> y in prev
    ensures x !in prev ==> Toggle(Toggle(prev, x), x) == prev
  {
    if x !in prev {
      FilterConcat(y => y != x, prev, [x]);
      FilterAll(y => y != x, prev);
    } else {
      FilterMembers(y => y != x, prev);
    }
  }

  /** The tag chip's handler. */
  function ToggleTag(f: FilterState, t: Tag): (g: FilterState)
    ensures t in g.tags <==> t !in f.tags
    ensures forall u :: u != t ==> (u in g.tags <==> u in f.tags)
    ensures NoDup(f.tags) ==> NoDup(g.tags)
    ensures g.(tags := f.tags) == f
  {
    f.(tags := Toggle(f.tags, t))
  }

  /** Turning a tag on narrows the filtered list; turning it off widens it. */
  lemma ToggleTagNarrowsOrWidens(catalog: seq<Course>, f: FilterState, t: Tag)
    ensures t !in f.tags ==> IsSubseq(FilteredCourses(catalog, ToggleTag(f, t)), FilteredCourses(catalog, f))
    ensures t in f.tags ==> IsSubseq(FilteredCourses(catalog, f), FilteredCourses(catalog, ToggleTag(f, t)))
  {
    var g := ToggleTag(f, t);
    if t !in f.tags {
      RefineNarrows(catalog, g, f);
    } else {
      RefineNarrows(catalog, f, g);
    }
  }

  /** `prev === v ? null : v`: choose `v`, or clear it when it is already chosen. */
  function RadioToggle<T(==)>(prev: Option<T>, v: T): (r: Option<T>)
    ensures r == Some(v) <==> prev != Some(v)
    ensures r == None <==> prev == Some(v)
  {
    if prev == Some(v) then None else Some(v)
  }

  /** From "nothing chosen" or "`v` chosen", pressing `v` twice restores the state. */
  lemma RadioTwice<T>(prev: Option<T>, v: T)
    requires prev == None || prev == Some(v)
    ensures RadioToggle(RadioToggle(prev, v), v) == prev
  {
  }

  /** The radio-style chips of the filter menu: one per level, credit value and department. */
  datatype Chip = LevelChip(level: string) | CreditsChip(credits: real) | DepartmentChip(department: string)

  /** The chip's dimension currently holds nothing. */
  predicate ChipUnset(f: FilterState, chip: Chip) {
    match chip
    case LevelChip(_) => f.level.None?
    case CreditsChip(_) => f.credits.None?
    case DepartmentChip(_) => f.department.None?
  }

  /** The chip's own value is the one currently chosen. */
  predicate ChipChosen(f: FilterState, chip: Chip) {
    match chip
    case LevelChip(v) => f.level == Some(v)
    case CreditsChip(v) => f.credits == Some(v)
    case DepartmentChip(v) => f.department == Some(v)
  }

  /** A chip's click handler: the radio toggle on its own dimension. */
  function PressChip(f: FilterState, chip: Chip): (g: FilterState)
    ensures ChipChosen(g, chip) <==> !ChipChosen(f, chip)
    ensures ChipUnset(g, chip) <==> ChipChosen(f, chip)
    ensures chip.LevelChip? ==> g.(level := f.level) == f
    ensures chip.CreditsChip? ==> g.(credits := f.credits) == f
    ensures chip.DepartmentChip? ==> g.(department := f.department) == f
  {
    match chip
    case LevelChip(v) => f.(level := RadioToggle(f.level, v))
    case CreditsChip(v) => f.(credits := RadioToggle(f.credits, v))
    case DepartmentChip(v) => f.(department := RadioToggle(f.department, v))
  }

  /** Pressing a chip on an empty dimension narrows the filtered list; pressing the chosen chip widens it. */
  lemma PressChipNarrowsOrWidens(catalog: seq<Course>, f: FilterState, chip: Chip)
    ensures ChipUnset(f, chip) ==> IsSubseq(FilteredCourses(catalog, PressChip(f, chip)), FilteredCourses(catalog, f))
    ensures ChipChosen(f, chip) ==> IsSubseq(FilteredCourses(catalog, f), FilteredCourses(catalog, PressChip(f, chip)))
  {
    var g := PressChip(f, chip);
    if ChipUnset(f, chip) {
      RefineNarrows(catalog, g, f);
    }
    if ChipChosen(f, chip) {
      RefineNarrows(catalog, f, g);
    }
  }

  /** The active-filter pills under the search bar: one per chosen tag, and one each for a chosen level, credits or department. */
  datatype Pill = TagPill(tag: Tag) | LevelPill | CreditsPill | DepartmentPill

  /**
   A pill's remove handler: a tag pill drops its tag from the tag list, the
   other pills set their dimension back to null. Nothing else changes.
   */
  function RemovePill(f: FilterState, pill: Pill): (g: FilterState)
    ensures pill.TagPill? ==> pill.tag !in g.tags && IsSubseq(g.tags, f.tags)
    ensures pill.TagPill? ==> multiset(g.tags) == multiset(f.tags)[pill.tag := 0]
    ensures pill.TagPill? ==> forall t :: t != pill.tag ==> (t in g.tags <==> t in f.tags)
    ensures pill.TagPill? ==> g.(tags := f.tags) == f
    ensures pill.LevelPill? ==> g.level == None && g.(level := f.level) == f
    ensures pill.CreditsPill? ==> g.credits == None && g.(credits := f.credits) == f
    ensures pill.DepartmentPill? ==> g.department == None && g.(department := f.department) == f
  {
    match pill
    case TagPill(t) => f.(tags := Remove(f.tags, t))
    case LevelPill => f.(level := None)
    case CreditsPill => f.(credits := None)
    case DepartmentPill => f.(department := None)
  }

  /**
   Removing a pill does what clicking its chip in the filter menu does: the
   tag pill of a chosen tag toggles that tag off, and the pill of a chosen
   level, credits or department value presses that value's chip again.
   */
  lemma RemovePillIsUnpress(f: FilterState, pill: Pill)
    ensures pill.TagPill? && pill.tag in f.tags ==> RemovePill(f, pill) == ToggleTag(f, pill.tag)
    ensures pill.LevelPill? && f.level.Some? ==> RemovePill(f, pill) == PressChip(f, LevelChip(f.level.value))
    ensures pill.CreditsPill? && f.credits.Some? ==> RemovePill(f, pill) == PressChip(f, CreditsChip(f.credits.value))
    ensures pill.DepartmentPill? && f.department.Some? ==> RemovePill(f, pill) == PressChip(f, DepartmentChip(f.department.value))
  {
  }

  /** Removing a pill only widens the filtered list. */
  lemma RemovePillWidens(catalog: seq<Course>, f: FilterState, pill: Pill)
    ensures IsSubseq(FilteredCourses(catalog, f), FilteredCourses(catalog, RemovePill(f, pill)))
  {
    RefineNarrows(catalog, f, RemovePill(f, pill));
  }

  /** "Clear All": every dimension but the search text is reset. */
  function ClearAll(f: FilterState): (g: FilterState)
    ensures g.search == f.search
    ensures g == Initial.(search := f.search)
    ensures Unconstrained(g.(search := ""))
    ensures Unconstrained(g) <==> f.search == ""
    ensures Refines(f, g)
  {
    f.(tags := [], level := None, credits := None, department := None)
  }

  /** Clearing only widens the filtered list, and with no search text it shows the whole catalog. */
  lemma ClearAllWidens(catalog: seq<Course>, f: FilterState)
    ensures IsSubseq(FilteredCourses(catalog, f), FilteredCourses(catalog, ClearAll(f)))
    ensures f.search == "" ==> FilteredCourses(catalog, ClearAll(f)) == catalog
  {
    RefineNarrows(catalog, f, ClearAll(f));
    if f.search == "" {
      UnconstrainedKeepsAll(catalog, ClearAll(f));
    }
  }
}

=== FILE: text.dfy ===
/**
 The string operations the catalog engine borrows from JavaScript:
 `toLowerCase` (ASCII letters only), `includes`, `startsWith`, and the
 ordering `localeCompare` supplies to the department sort (modelled as
 code-point lexicographic order).
 */
module Text {

  function LowerChar(ch: char): char {
    if 'A' <= ch <= 'Z' then (ch as int + 32) as char else ch
  }

  /**
   `toLowerCase`, restricted to ASCII letters: no capital survives, each
   capital becomes the letter 32 code points above it, and every other
   character is kept.
   */
  function Lower(s: string): (r: string)
    ensures |r| == |s|
    ensures forall i :: 0 <= i < |r| ==> !('A' <= r[i] <= 'Z')
    ensures forall i :: 0 <= i < |s| && 'A' <= s[i] <= 'Z' ==> r[i] as int == s[i] as int + 32
    ensures forall i :: 0 <= i < |s| && !('A' <= s[i] <= 'Z') ==> r[i] == s[i]
  {
    seq(|s|, i requires 0 <= i < |s| => LowerChar(s[i]))
  }

  /** Lower-casing twice is lower-casing once. */
  lemma LowerIdempotent(s: string)
    ensures Lower(Lower(s)) == Lower(s)
  {
    var l := Lower(s);
    forall i | 0 <= i < |s|
      ensures Lower(l)[i] == l[i]
    {
      assert !('A' <= l[i] <= 'Z');
    }
  }

  /** `s.startsWith(t)`. */
  predicate StartsWith(s: string, t: string) {
    t <= s
  }

  /** `s.includes(t)`: `t` occurs in `s` as a contiguous block. */
  predicate Contains(s: string, t: string)
    decreases |s|
  {
    t <= s || (|s| > 0 && Contains(s[1..], t))
  }

  /** `t` occurs in `s` starting at position `i`. */
  predicate OccursAt(s: string, t: string, i: int) {
    0 <= i <= |s| - |t| && s[i..i + |t|] == t
  }

  /** The block-occurrence reading of `Contains`. */
  lemma {:induction false} ContainsAt(s: string, t: string)
    ensures Contains(s, t) <==> exists i :: OccursAt(s, t, i)
    decreases |s|
  {
    if t <= s {
      assert OccursAt(s, t, 0);
    } else if |s| == 0 {
    } else {
      ContainsAt(s[1..], t);
      if exists i :: OccursAt(s, t, i) {
        var i :| OccursAt(s, t, i);
        assert i != 0;
        assert OccursAt(s[1..], t, i - 1);
      }
      if exists i :: OccursAt(s[1..], t, i) {
        var i :| OccursAt(s[1..], t, i);
        assert OccursAt(s, t, i + 1);
      }
    }
  }

  /**
   Three-way lexicographic comparison by code point: -1, 0 or 1, with a
   proper prefix ordered first.
   */
  function LexCompare(a: string, b: string): (r: int)
    ensures -1 <= r <= 1
  {
    if |a| == 0 && |b| == 0 then 0
    else if |a| == 0 then -1
    else if |b| == 0 then 1
    else if a[0] < b[0] then -1
    else if a[0] > b[0] then 1
    else LexCompare(a[1..], b[1..])
  }

  /** `a` and `b` agree before position `i`, where `a` has the smaller character. */
  ghost predicate FirstDiffAt(a: string, b: string, i: int) {
    0 <= i < |a| && i < |b| && a[..i] == b[..i] && a[i] < b[i]
  }

  /** Lexicographic "at most": `a` is a prefix of `b`, or they first differ at a smaller character of `a`. */
  ghost predicate LexLe(a: string, b: string) {
    a <= b || exists i :: FirstDiffAt(a, b, i)
  }

  lemma {:induction false} LexCompareFlip(a: string, b: string)
    ensures LexCompare(a, b) == -LexCompare(b, a)
    decreases |a|
  {
    if |a| > 0 && |b| > 0 && a[0] == b[0] {
      LexCompareFlip(a[1..], b[1..]);
    }
  }

  lemma {:induction false} LexCompareZero(a: string, b: string)
    ensures LexCompare(a, b) == 0 <==> a == b
    decreases |a|
  {
    if |a| > 0 && |b| > 0 && a[0] == b[0] {
      LexCompareZero(a[1..], b[1..]);
      assert a == [a[0]] + a[1..] && b == [b[0]] + b[1..];
    }
  }

  lemma {:induction false} LexCompareTrans(a: string, b: string, c: string)
    requires LexCompare(a, b) <= 0 && LexCompare(b, c) <= 0
    ensures LexCompare(a, c) <= 0
    decreases |a|
  {
    if |a| > 0 && |b| > 0 && |c| > 0 && a[0] == b[0] == c[0] {
      LexCompareTrans(a[1..], b[1..], c[1..]);
    }
  }

  /** Dropping a shared first character preserves the lexicographic order. */
  lemma LexLeTail(a: string, b: string)
    requires |a| > 0 && |b| > 0 && a[0] == b[0]
    ensures LexLe(a, b) <==> LexLe(a[1..], b[1..])
  {
    var a', b' := a[1..], b[1..];
    assert a == [a[0]] + a' && b == [b[0]] + b';
    assert a <= b <==> a' <= b';
    if exists i :: FirstDiffAt(a, b, i) {
      var i :| FirstDiffAt(a, b, i);
      assert i > 0;
      assert a'[..i - 1] == a[1..i] == b[1..i] == b'[..i - 1];
      assert FirstDiffAt(a', b', i - 1);
    }
    if exists j :: FirstDiffAt(a', b', j) {
      var j :| FirstDiffAt(a', b', j);
      assert a[..j + 1] == [a[0]] + a'[..j];
      assert b[..j + 1] == [b[0]] + b'[..j];
      assert FirstDiffAt(a, b, j + 1);
    }
  }

  /** A larger first character rules out "at most". */
  lemma LexLeHeadGreater(a: string, b: string)
    requires |a| > 0 && |b| > 0 && a[0] > b[0]
    ensures !LexLe(a, b)
  {
    assert !(a <= b);
    forall i | 0 < i <= |a| && i <= |b|
      ensures a[..i] != b[..i]
    {
      assert a[..i][0] == a[0] && b[..i][0] == b[0];
    }
    assert !FirstDiffAt(a, b, 0);
  }

  /** `LexCompare` agrees with the lexicographic order it is meant to decide. */
  lemma {:induction false} LexCompareMeaning(a: string, b: string)
    ensures LexCompare(a, b) <= 0 <==> LexLe(a, b)
    decreases |a|
  {
    if |a| == 0 {
      assert a <= b;
    } else if |b| == 0 {
      assert !(a <= b);
    } else if a[0] < b[0] {
      assert FirstDiffAt(a, b, 0);
    } else if a[0] > b[0] {
      LexLeHeadGreater(a, b);
    } else {
      LexCompareMeaning(a[1..], b[1..]);
      LexLeTail(a, b);
    }
  }
}
